=== FILE: README.md ===
# NetCDF to ASCII raster conversion, modelled in Dafny

This project models the conversion core of the `netcdf_to_gssha` Tethys app
(`netcdf_to_ascii.py`). The core turns one variable of a gridded NetCDF dataset into one
GRASS or ARC/ESRI ASCII raster per timestep, and these are bundled into a zip archive. The
model follows the pipeline stage by stage:

- `Coordinates` is the coordinate resolver. It finds the latitude and longitude variables
  by their `units` attribute. The last match wins, and longitude units win over latitude
  units. The names the Python code stores in module globals are returned as values here.
- `BoundingBox` is the indexer. With no box it gives the full extent. With a box it gives
  the nearest sample (first argmin) of each bound. Negative east and west bounds are first
  moved up by 360 degrees.
- `Header` is the header builder. It computes half-cell corner offsets, the row and column
  counts and the cell size. It fills the GRASS or the ARC template, and it reads the counts
  back from the text.
- `Slicing` is the slice extractor. `index_variable` builds its index expression as a string
  and runs `eval` on it. Here that expression is a typed `SliceSpec` list (`Index(t)`,
  `Range(lo, hiExcl)`, `Zero`). It is applied to a variable stored in row-major order, with
  Python's slice clipping and negative indices. Masked cells are filled only when some cell
  is masked.
- `Body` is the serialiser (`array_to_string`). It has a parser that reads the text back.
  `Text` gives `join`/`split` and `Decimal` gives `str(int)`.
- `Naming` and `Conversion` cover `create_ascii`. They choose the extension and the file,
  zip and timestep defaults, and assemble the archive's entries. No I/O is done.
- `Findings` covers two defects of the header as written. Each has a counterexample and a
  corrected definition.

`Netcdf` holds the dataset model. A variable has a name, an optional `units` attribute,
dimension names, a shape, its cells (`Value(int)` or `Masked`) in row-major order, and
`samples`, the values a one-dimensional variable gives when read as floating point numbers.
The samples are how a coordinate axis is read (`lat_var[:]`) and how a timestep's time is
read (`data.variables['time'][k]`). A well-formed one-dimensional variable has one sample
per element, and a well-formed dataset has no two variables of the same name. Python exceptions become `Failure` values of the `Fault` datatype.

The model follows the code as written. The +360 longitude shift is applied to every negative east or west bound, whatever convention the
dataset uses. `correct_coordinate` returns its argument in every case. When no latitude or
longitude variable is found, the code raises at `None[:]`; that is modelled as
`LatitudeNotFound` or `LongitudeNotFound`.

## Model

| member | source | states |
|---|---|---|
| Coordinates.Resolve | tethysapp/netcdf_to_gssha/workspaces/app_workspace/netcdf_to_ascii.py:30-46 | For each axis, the chosen variable is the last one in declaration order that the scan takes as that axis. A variable is taken as latitude only when its units are not longitude units (the `elif`). The result is None exactly when no variable qualifies. |
| Coordinates.ChoiceKept | tethysapp/netcdf_to_gssha/workspaces/app_workspace/netcdf_to_ascii.py:34-44 | A loop iteration over a variable that is not taken as an axis leaves that axis's choice unchanged. |
| Coordinates.ChosenHaveUnits | tethysapp/netcdf_to_gssha/workspaces/app_workspace/netcdf_to_ascii.py:30-50 | A chosen variable always has a `units` attribute from the matching list. A variable with longitude units is never chosen as latitude. |
| Coordinates.ChosenAxisLengths | tethysapp/netcdf_to_gssha/workspaces/app_workspace/netcdf_to_ascii.py:52-56 | When every variable is well formed, a chosen one-dimensional latitude or longitude yields as many samples as its dimension is long, which is what `len()` of `lat_var[:]` and `lon_var[:]` gives. |
| Coordinates.LatsAndLons | tethysapp/netcdf_to_gssha/workspaces/app_workspace/netcdf_to_ascii.py:52-56 | Both axes' samples are returned exactly when both variables resolve. A missing latitude is reported first, exactly when no variable qualifies as latitude. |
| Netcdf.Lookup | tethysapp/netcdf_to_gssha/workspaces/app_workspace/netcdf_to_ascii.py:148 | `data.variables[name]` finds a variable with that name, and fails (KeyError) exactly when no variable has that name. |
| Netcdf.OffsetInRange | tethysapp/netcdf_to_gssha/workspaces/app_workspace/netcdf_to_ascii.py:139 | An in-bounds index tuple addresses an element that exists in the row-major data. |
| Netcdf.At | tethysapp/netcdf_to_gssha/workspaces/app_workspace/netcdf_to_ascii.py:70-73 | Python indexing of an axis succeeds exactly for positions from -len to len-1. A non-negative position gives the sample at that position, and a negative position `i` gives the sample at `len + i`. |
| BoundingBox.ArgminUpTo | tethysapp/netcdf_to_gssha/workspaces/app_workspace/netcdf_to_ascii.py:172 | Over the first n samples, the result is a position whose distance to the query is least, and every earlier position is strictly farther. |
| BoundingBox.FindNearestIndex | tethysapp/netcdf_to_gssha/workspaces/app_workspace/netcdf_to_ascii.py:170-173 | It fails (ValueError) exactly on an empty axis. Otherwise it returns an in-range index nearest to the query, with ties going to the lowest index. |
| BoundingBox.FirstNearestUnique | tethysapp/netcdf_to_gssha/workspaces/app_workspace/netcdf_to_ascii.py:172 | At most one position is the first nearest, so the first-nearest property fixes the answer. |
| BoundingBox.FindNearestCharacterised | tethysapp/netcdf_to_gssha/workspaces/app_workspace/netcdf_to_ascii.py:170-173 | The search returns i if and only if i is the first nearest position. |
| BoundingBox.ExactSampleFound | tethysapp/netcdf_to_gssha/workspaces/app_workspace/netcdf_to_ascii.py:170-173 | A query equal to a sample returns a position holding that value, at or before the sample's own position. |
| BoundingBox.ClampsOnIncreasingAxis | tethysapp/netcdf_to_gssha/workspaces/app_workspace/netcdf_to_ascii.py:170-173 | On a strictly ascending axis, a query at or below the first sample gives index 0. A query at or above the last sample gives the last index. |
| BoundingBox.ClampsOnDecreasingAxis | tethysapp/netcdf_to_gssha/workspaces/app_workspace/netcdf_to_ascii.py:170-173 | On a strictly descending axis, a query beyond either end clamps to that end's index. |
| BoundingBox.ShiftLongitude | tethysapp/netcdf_to_gssha/workspaces/app_workspace/netcdf_to_ascii.py:108-111 | A negative longitude bound is raised by 360. A non-negative one is kept as it is. |
| BoundingBox.Indices | tethysapp/netcdf_to_gssha/workspaces/app_workspace/netcdf_to_ascii.py:97-121 | With no box the result is `{north: len(lats)-1, south: 0, east: len(lons)-1, west: 0}`. With a box it fails exactly when an axis is empty. Otherwise each index is the first nearest sample of its own bound on its own axis: north and south as given, east and west shifted when negative. On non-empty axes every index is valid. |
| BoundingBox.FullExtentValid | tethysapp/netcdf_to_gssha/workspaces/app_workspace/netcdf_to_ascii.py:100-104 | On non-empty axes, the no-box indices are valid and span both axes end to end. |
| BoundingBox.OutsideBoxClamps | tethysapp/netcdf_to_gssha/workspaces/app_workspace/netcdf_to_ascii.py:106-121 | A box whose north and south bounds lie at or above the last latitude, and whose east and west bounds lie between 0 and the first longitude, gives the north-west corner indices rather than an error. The axes are ascending. |
| Header.CorrectCoordinate | tethysapp/netcdf_to_gssha/workspaces/app_workspace/netcdf_to_ascii.py:63-67 | The coordinate correction returns its argument unchanged for every input. |
| Header.BuildHeader | tethysapp/netcdf_to_gssha/workspaces/app_workspace/netcdf_to_ascii.py:58-89 | It fails (IndexError) exactly when an axis has fewer than two samples or an index is not a Python position of its axis. Otherwise `rows = 1 + abs(east - west)` and `cols = 1 + abs(north - south)`, both at least 1, and `cell_size = abs(lons[1] - lons[0])`. North and east are the indexed sample plus half a cell; south and west are the sample minus half a cell. |
| Header.FullExtentSpan | tethysapp/netcdf_to_gssha/workspaces/app_workspace/netcdf_to_ascii.py:60-80 | On evenly spaced ascending axes, the full-extent header's north-south span is `cols` cell heights. Its east-west span is `rows` cell widths, and the cell size is the longitude spacing. |
| Header.ExampleHeader | tethysapp/netcdf_to_gssha/workspaces/app_workspace/netcdf_to_ascii.py:70-80 | With latitudes 10, 20, 30, longitudes 100, 110, 120 and no box, the header is north 35, south 5, east 125, west 95, rows 3, cols 3, cell size 10. |
| Header.DialectFor | tethysapp/netcdf_to_gssha/workspaces/app_workspace/netcdf_to_ascii.py:91 | The ARC template is used if and only if the format string is exactly "ARC". Every other string gets GRASS. |
| Header.TemplateSplits | tethysapp/netcdf_to_gssha/workspaces/app_workspace/netcdf_to_ascii.py:93 | A filled template splits on newlines into one line per template entry, plus the empty part after the final newline. |
| Header.FindInTemplate | tethysapp/netcdf_to_gssha/workspaces/app_workspace/netcdf_to_ascii.py:8-22 | Looking up a label in a filled template finds the text of that label's field, provided every earlier label differs from it in its first two characters. |
| Header.CountLines | tethysapp/netcdf_to_gssha/workspaces/app_workspace/netcdf_to_ascii.py:8-22 | In both dialects, the first line that starts with the rows label holds the row count and the first line that starts with the cols label holds the column count. |
| Header.CountsRoundTrip | tethysapp/netcdf_to_gssha/workspaces/app_workspace/netcdf_to_ascii.py:8-22 | Reading `rows:`/`cols:` (GRASS) or `nrows`/`ncols` (ARC) back from the header text gives the header's row and column counts. |
| Slicing.SliceSpecs | tethysapp/netcdf_to_gssha/workspaces/app_workspace/netcdf_to_ascii.py:123-137 | The index list has one entry per dimension, in declaration order: the time dimension gives `Index(t)`, latitude gives `Range(south, north+1)`, longitude gives `Range(west, east+1)`, and any other dimension gives `Zero`. |
| Slicing.SliceLength | tethysapp/netcdf_to_gssha/workspaces/app_workspace/netcdf_to_ascii.py:131-133 | A Python slice selects positions inside the axis. It selects `hi - lo` of them for in-range ordered bounds, and none when the bounds cross. |
| Slicing.Extract | tethysapp/netcdf_to_gssha/workspaces/app_workspace/netcdf_to_ascii.py:138-140 | The slice fails exactly when a single-position entry is out of range or the slice does not keep two axes. Otherwise it has one row per position of the first kept axis's slice and one column per position of the second. |
| Slicing.StandardSlice | tethysapp/netcdf_to_gssha/workspaces/app_workspace/netcdf_to_ascii.py:123-149 | For a (time, lat, lon) variable and ordered in-range indices, the slice has `north-south+1` rows of `east-west+1` cells. Cell (i, j) is the element at the timestep, latitude `south+i` and longitude `west+j`. |
| Slicing.CrossedLatitudeSliceEmpty | tethysapp/netcdf_to_gssha/workspaces/app_workspace/netcdf_to_ascii.py:131 | When the north index is below the south index (a descending latitude axis with a box), the latitude slice selects nothing. |
| Slicing.FillMasked | tethysapp/netcdf_to_gssha/workspaces/app_workspace/netcdf_to_ascii.py:150-153 | Masked cells become the no-data value and unmasked cells are unchanged. No masked cell remains, and an array with no masked cell is returned as it is. |
| Slicing.GetValues | tethysapp/netcdf_to_gssha/workspaces/app_workspace/netcdf_to_ascii.py:142-153 | An unknown variable name fails with KeyError. Otherwise it fails exactly when the slice fails, with the slice's error, for example IndexError for a timestep outside the time dimension. A successful result is the slice with masked cells filled, and it contains no masked cell. |
| Slicing.StandardValues | tethysapp/netcdf_to_gssha/workspaces/app_workspace/netcdf_to_ascii.py:142-153 | For a (time, lat, lon) variable and in-range indices with south <= north and west <= east, `get_values` succeeds with `north-south+1` rows of `east-west+1` values. Value (i, j) is the element at the timestep, latitude `south+i` and longitude `west+j`, with a masked element replaced by the no-data value. |
| Body.BodyLayout | tethysapp/netcdf_to_gssha/workspaces/app_workspace/netcdf_to_ascii.py:155-157 | A non-empty grid's text splits on newlines into exactly one line per row, with no trailing newline. Each non-empty row's line splits on spaces into that row's tokens, in order. |
| Body.ArrayToString | tethysapp/netcdf_to_gssha/workspaces/app_workspace/netcdf_to_ascii.py:155-157 | An empty array serialises to the empty string. |
| Body.CellRoundTrip | tethysapp/netcdf_to_gssha/workspaces/app_workspace/netcdf_to_ascii.py:156 | Each element's text (its decimal value, or `--` when masked) reads back as that element. |
| Body.GridRoundTrip | tethysapp/netcdf_to_gssha/workspaces/app_workspace/netcdf_to_ascii.py:155-157 | Parsing the body text of a grid with at least one row and no empty row gives back that grid. |
| Body.EmptyRowAmbiguous | tethysapp/netcdf_to_gssha/workspaces/app_workspace/netcdf_to_ascii.py:156 | An array with no rows and an array with one empty row both print as "", so only grids without empty rows can be read back. |
| Text.Split | tethysapp/netcdf_to_gssha/workspaces/app_workspace/netcdf_to_ascii.py:156 | Splitting on a separator gives at least one piece, no piece contains the separator, and joining the pieces gives back the text. |
| Text.SplitJoin | tethysapp/netcdf_to_gssha/workspaces/app_workspace/netcdf_to_ascii.py:156 | Splitting a join of separator-free parts gives back the parts. |
| Decimal.IntRoundTrip | tethysapp/netcdf_to_gssha/workspaces/app_workspace/netcdf_to_ascii.py:156 | The decimal text of any integer parses back to that integer. |
| Naming.Extension | tethysapp/netcdf_to_gssha/workspaces/app_workspace/netcdf_to_ascii.py:187 | The extension is `asc` if and only if the format is "ARC", and `ggd` otherwise. |
| Naming.StampRoundTrip | tethysapp/netcdf_to_gssha/workspaces/app_workspace/netcdf_to_ascii.py:194 | The timestamp can be read back from `{variable}-{timestamp}.{ext}`. |
| Naming.FileNamesDistinct | tethysapp/netcdf_to_gssha/workspaces/app_workspace/netcdf_to_ascii.py:194 | Two timesteps of a variable get the same file name only when their timestamps are equal. |
| Naming.ZipName | tethysapp/netcdf_to_gssha/workspaces/app_workspace/netcdf_to_ascii.py:198 | A non-empty requested zip name is used as given. None or "" gives `{input}-{variable}.zip`. |
| Naming.Timesteps | tethysapp/netcdf_to_gssha/workspaces/app_workspace/netcdf_to_ascii.py:188 | A non-empty timestep list is used as given. None or an empty list gives `0, 1, …, count-1`. |
| Conversion.TimestepCount | tethysapp/netcdf_to_gssha/workspaces/app_workspace/netcdf_to_ascii.py:188 | The count is the length of the `time` variable's first dimension, and it succeeds exactly when `time` exists and has a dimension. It fails with KeyError exactly when there is no `time` variable, and with TypeError (`len()` of a scalar) exactly when `time` has no dimension. |
| Conversion.StepsFor | tethysapp/netcdf_to_gssha/workspaces/app_workspace/netcdf_to_ascii.py:188 | A requested non-empty list is used without looking at the time variable. Otherwise the steps are `0, 1, …, count-1` for the `time` count, and they fail exactly when that count fails, with its error. |
| Conversion.TimeValue | tethysapp/netcdf_to_gssha/workspaces/app_workspace/netcdf_to_ascii.py:193 | The value rendered as the timestamp is a one-dimensional `time` variable's sample at the timestep, by Python indexing. There are three failure cases. With no `time` variable it fails with KeyError. With a multi-dimensional `time` and an index inside its first dimension, the step is an array and `time.gmtime` raises TypeError. Otherwise it fails with IndexError, which covers a scalar `time` and an index outside the samples. |
| Conversion.DefaultStepTimes | tethysapp/netcdf_to_gssha/workspaces/app_workspace/netcdf_to_ascii.py:188-193 | With a one-dimensional `time` variable and no timestep list, there is one step per time sample, and the k-th step's time value is the k-th sample. |
| Conversion.EntryFor | tethysapp/netcdf_to_gssha/workspaces/app_workspace/netcdf_to_ascii.py:191-196 | A timestep's entry succeeds exactly when both its values and its time value do. A values failure is reported first, then a time failure. The file is named `{variable}-{stamp(time value)}.{ext}`, and its text is the shared header followed by the serialised values. |
| Conversion.Collect | tethysapp/netcdf_to_gssha/workspaces/app_workspace/netcdf_to_ascii.py:190-196 | A loop that raises succeeds exactly when every step succeeds, and then holds every step's value in order. When it fails, its error is that of a failing step with every earlier step successful, which makes it the first failure. |
| Conversion.Entries | tethysapp/netcdf_to_gssha/workspaces/app_workspace/netcdf_to_ascii.py:190-196 | The loop succeeds exactly when every timestep's entry succeeds. It then holds one entry per timestep, in timestep order. |
| Conversion.PlanFor | tethysapp/netcdf_to_gssha/workspaces/app_workspace/netcdf_to_ascii.py:183-187 | Work before the loop: the axis, box-index and header stages run in order, and the first failure is passed on unchanged. When all three succeed there is a plan. It holds the resolved axis names, the box indices, the header text in the format's dialect and the format's extension. |
| Conversion.Convert | tethysapp/netcdf_to_gssha/workspaces/app_workspace/netcdf_to_ascii.py:175-199 | Axis resolution failures abort the conversion with that error. A successful archive carries the requested or default zip name. |
| Conversion.ArchiveEntries | tethysapp/netcdf_to_gssha/workspaces/app_workspace/netcdf_to_ascii.py:185-199 | A successful archive holds exactly one entry per timestep, in order. Each entry is named after the variable, that timestep's timestamp and the format's extension, and begins with the same header text. |
| Conversion.FullExtentPlan | tethysapp/netcdf_to_gssha/workspaces/app_workspace/netcdf_to_ascii.py:97-104 | With no box and both axes found one-dimensional with two or more samples, the work before the loop succeeds. The plan keeps the variable and the resolved names, and its indices span both axes end to end. |
| Conversion.ConventionalPlan | tethysapp/netcdf_to_gssha/workspaces/app_workspace/netcdf_to_ascii.py:97-104 | With no box, a conventional dataset gets a plan. Conventional means both axes are found one-dimensional with two or more samples, there is a (time, lat, lon) variable over them, and there is a one-dimensional `time` variable of matching length. The plan keeps the variable and the resolved names, and spans both axes end to end. |
| Conversion.FullExtentValues | tethysapp/netcdf_to_gssha/workspaces/app_workspace/netcdf_to_ascii.py:142-153 | Over the full extent, timestep k of a (time, lat, lon) variable yields one row per latitude and one value per longitude. Value (i, j) is the element at (k, i, j), with a masked element replaced by the no-data value. |
| Conversion.ConventionalValues | tethysapp/netcdf_to_gssha/workspaces/app_workspace/netcdf_to_ascii.py:142-153 | Under that plan, timestep k of a conventional dataset yields one row per latitude and one value per longitude. Value (i, j) is the variable's element at (k, i, j), with a masked element replaced by the no-data value. |
| Conversion.ConventionalEntry | tethysapp/netcdf_to_gssha/workspaces/app_workspace/netcdf_to_ascii.py:191-195 | Under that plan, timestep k's file is named after the k-th time sample. Its text is the header, followed by a body that parses back to timestep k of the variable over both full axes, with masked elements filled. |
| Conversion.ConventionalEntries | tethysapp/netcdf_to_gssha/workspaces/app_workspace/netcdf_to_ascii.py:188-196 | Under that plan, the loop over `0 … count-1` succeeds. The k-th entry is named after the k-th time sample, and its body parses back to timestep k of the variable. |
| Conversion.ConventionalConversion | tethysapp/netcdf_to_gssha/workspaces/app_workspace/netcdf_to_ascii.py:183-199 | With no box and no timestep list, a conventional dataset converts without error into one entry per time sample. Entry k is named after the k-th time sample. Its body after the header parses back to the variable's values at timestep k over both full axes, with masked elements replaced by the no-data value. |
| Conversion.ExampleAxes | tethysapp/netcdf_to_gssha/workspaces/app_workspace/netcdf_to_ascii.py:30-46 | On a dataset declaring `time`, `lat` (units `degrees_north`), `lon` (units `degrees_east`) and `temp`, the scan picks `lat` as latitude and `lon` as longitude. |
| Conversion.ExampleIsConventional | tethysapp/netcdf_to_gssha/workspaces/app_workspace/netcdf_to_ascii.py:30-46 | That dataset is in the conventional layout, so the conventional lemmas apply to at least one dataset. It has a one-dimensional `time` of one step and a one-step (time, lat, lon) `temp` over three latitudes and two longitudes. |
| Findings.RowsFollowLongitude | tethysapp/netcdf_to_gssha/workspaces/app_workspace/netcdf_to_ascii.py:78-79 | With three latitudes and two longitudes, the header's `rows` is 2 while the body has 3 lines. |
| Findings.CorrectedCountsMatchBody | tethysapp/netcdf_to_gssha/workspaces/app_workspace/netcdf_to_ascii.py:78-79 | With counts taken along the matching axes, the header's rows equal the body's lines and its cols equal each line's values. |
| Findings.ArcCornerAsWritten | tethysapp/netcdf_to_gssha/workspaces/app_workspace/netcdf_to_ascii.py:16-22 | As written, the ARC `xllcorner` line prints the south edge (a latitude) and `yllcorner` prints the west edge. |
| Findings.ArcCornerExample | tethysapp/netcdf_to_gssha/workspaces/app_workspace/netcdf_to_ascii.py:18-19 | On the worked example, the value printed as the x corner is 5 while the west edge is 95. |
| Findings.ArcCornerCorrected | tethysapp/netcdf_to_gssha/workspaces/app_workspace/netcdf_to_ascii.py:16-22 | With the corrected template, `xllcorner` reads back as the west edge and `yllcorner` as the south edge. |

## Findings

| source | as written | input that shows it | evidently intended | confidence | as-written member | corrected member |
|---|---|---|---|---|---|---|
| tethysapp/netcdf_to_gssha/workspaces/app_workspace/netcdf_to_ascii.py:78-79 | `rows` counts the longitude index span and `cols` the latitude span. For a (time, lat, lon) variable, the body has one line per latitude and one value per longitude. | lats 10, 20, 30; lons 100, 110; no box: header `rows: 2`, `cols: 3` over a 3-line body of 2 values each | rows from the latitude span, cols from the longitude span, so that the counts describe the body | medium, not executed | Findings.RowsFollowLongitude | Findings.CorrectedCountsMatchBody |
| tethysapp/netcdf_to_gssha/workspaces/app_workspace/netcdf_to_ascii.py:18-19 | The ARC template prints the south edge as `xllcorner` and the west edge as `yllcorner`. In the ESRI grid format x is the longitude axis. | lats 10, 20, 30; lons 100, 110, 120; ARC: `xllcorner 5.0`, `yllcorner 95.0` | `xllcorner` from the west edge, `yllcorner` from the south edge | medium, not executed | Findings.ArcCornerAsWritten | Findings.ArcCornerCorrected |

`Conversion.Convert` keeps the header exactly as the code writes it, so the model matches
the code's output. `Findings.BuildHeaderCorrected` and `Findings.ArcTemplateCorrected` are
the drop-in replacements for `Header.BuildHeader`'s counts and for the ARC template.

## Left out

- Opening the dataset with netCDF4 is not modelled. The dataset is a value: variables in declaration order, each with a name, an optional units string, dimension names, a shape, row-major cells and real samples.
- `write_ascii_file`, `zip_files` and the `os.remove` cleanup are file and zip I/O and are not modelled. The conversion returns the archive's name and entries instead. When two timesteps share a file name, the code's zip step would fail or archive overwritten content; that is not modelled.
- Timestamp rendering with `time.gmtime` and `strftime` is not modelled. The `stamp` parameter turns the time value into the timestamp string.
- `str()` of floats in the header is not modelled. The `showReal` parameter renders coordinates and the cell size. Cell values are integers, so `str()` of an element is exact decimal text, and a masked element prints as `--`. Coordinates are exact reals, with no float rounding.
- The NaN self-equality assert in `write_header` is left out, because reals have no NaN.
- The `__main__` command-line block is not modelled.
- controllers.py (Django views, job submission and download), app.py (app and job-template configuration) and handoff.py (workspace symlink) are not part of this model.
- The module globals `LAT_VAR_NAME` and `LON_VAR_NAME` keep their values from one call to the next; that is not modelled. Each conversion uses the names it resolved itself.
- Slicing.Extract: a slice that keeps other than two axes is reported as `NotTwoDimensional`. The code differs in three ways. Zero kept axes, or one kept axis with a non-empty slice, raise TypeError in `array_to_string`. One kept axis with an empty slice prints as "", so the code writes a file holding only the header. Three or more kept axes print numpy's bracketed sub-array text instead of failing.
- Slicing.GetValues: the contract ties the result to the slice and its failures, but not to the variable's elements directly. The cell-by-cell content is stated by `Slicing.StandardValues` for (time, lat, lon) variables with ordered indices.
- Conversion.Convert: its own contract covers only axis-resolution failures and the zip name. The entry-level content is stated by `Conversion.ArchiveEntries` and `Conversion.ConventionalConversion`.
- Body.ArrayToString: its own contract covers only the empty array. Line and token structure is in `Body.BodyLayout` and `Body.GridRoundTrip`.
- A `units` attribute that is not a string is not modelled. Units are an optional string.
- Cell values and the no-data value are unbounded integers. The code's `array.filled(no_data_value)` converts the no-data value to the variable's dtype. For narrow integer dtypes such as `uint8`, `int8` or `uint16`, numpy raises or wraps -9999; that is not modelled. Floating-point data and a floating-point no-data value cannot be expressed either.
- Coordinates.LatsAndLons: a chosen coordinate variable that is not one-dimensional gives an unconstrained sample sequence here. The code reads it with `[:]` as an n-dimensional array whose `len()` is `shape[0]`, and for a longitude with two or more columns the `assert` at line 62 raises ValueError on an array comparison. The lemmas about whole conversions (`Conversion.FullExtentPlan`, `Conversion.ConventionalPlan`, `Conversion.ConventionalConversion`) therefore assume both coordinate variables are one-dimensional.
- The values of `samples` are not tied to the values of a variable's integer cells. Only their count is tied, for one-dimensional variables, because the cells hold integers and the samples hold reals.

=== FILE: body.dfy ===
/** The raster body: values joined by spaces, rows joined by newlines (`array_to_string`). */
module Body {
  import opened Results
  import opened Netcdf
  import opened Text
  import opened Decimal

  /** `str(v)` of one element: the decimal value, or numpy's `--` for a masked element. */
  function CellText(c: Cell): (s: string)
    ensures |s| >= 1 && ' ' !in s && '\n' !in s
  {
    match c
    case Value(n) => IntToString(n)
    case Masked => "--"
  }

  function RowTokens(row: seq<Cell>): (tokens: seq<string>)
    ensures |tokens| == |row|
  {
    seq(|row|, j requires 0 <= j < |row| => CellText(row[j]))
  }

  /** `' '.join(str(v) for v in row)`. */
  function RowText(row: seq<Cell>): (s: string)
    ensures '\n' !in s
  {
    var tokens := RowTokens(row);
    NoNewlineInJoin(' ', tokens);
    Join(' ', tokens)
  }

  lemma {:induction false} NoNewlineInJoin(sep: char, parts: seq<string>)
    requires sep != '\n'
    requires forall i :: 0 <= i < |parts| ==> '\n' !in parts[i]
    ensures '\n' !in Join(sep, parts)
    decreases |parts|
  {
    if |parts| > 1 {
      NoNewlineInJoin(sep, parts[1..]);
    }
  }

  function RowTexts(g: seq<seq<Cell>>): (lines: seq<string>)
    ensures |lines| == |g|
  {
    seq(|g|, i requires 0 <= i < |g| => RowText(g[i]))
  }

  /** `array_to_string`: the body text of a 2-D grid. */
  function ArrayToString(g: seq<seq<Cell>>): (s: string)
    ensures |g| == 0 ==> s == ""
  {
    Join('\n', RowTexts(g))
  }

  /**
   * A non-empty grid's text splits on newlines into one line per row, with no trailing
   * empty line, and each line of a non-empty row splits on spaces into that row's tokens.
   */
  lemma BodyLayout(g: seq<seq<Cell>>)
    requires |g| > 0
    ensures Split('\n', ArrayToString(g)) == RowTexts(g)
    ensures forall i :: 0 <= i < |g| && |g[i]| > 0 ==> Split(' ', RowTexts(g)[i]) == RowTokens(g[i])
  {
    SplitJoin('\n', RowTexts(g));
    forall i | 0 <= i < |g| && |g[i]| > 0
      ensures Split(' ', RowTexts(g)[i]) == RowTokens(g[i])
    {
      SplitJoin(' ', RowTokens(g[i]));
    }
  }

  /** Reads one token back: `--` is a masked element, anything else must be an integer. */
  function ParseCell(token: string): Option<Cell> {
    if token == "--" then Some(Masked)
    else match ParseInt(token)
      case None => None
      case Some(n) => Some(Value(n))
  }

  function ParseTokens(tokens: seq<string>): Option<seq<Cell>>
    decreases |tokens|
  {
    if |tokens| == 0 then Some([])
    else match (ParseCell(tokens[0]), ParseTokens(tokens[1..]))
      case (Some(c), Some(rest)) => Some([c] + rest)
      case _ => None
  }

  function ParseLines(lines: seq<string>): Option<seq<seq<Cell>>>
    decreases |lines|
  {
    if |lines| == 0 then Some([])
    else match (ParseTokens(Split(' ', lines[0])), ParseLines(lines[1..]))
      case (Some(row), Some(rest)) => Some([row] + rest)
      case _ => None
  }

  /** Reads a body text back into a grid. */
  function ParseGrid(text: string): Option<seq<seq<Cell>>> {
    ParseLines(Split('\n', text))
  }

  lemma CellRoundTrip(c: Cell)
    ensures ParseCell(CellText(c)) == Some(c)
  {
    if c.Value? {
      IntRoundTrip(c.value);
      var text := IntToString(c.value);
      if c.value < 0 {
        assert text[1..] == NatToString(-c.value);
        assert IsDigit(text[1]);
      } else {
        assert IsDigit(text[0]);
      }
      assert text != "--";
    }
  }

  lemma {:induction false} TokensRoundTrip(row: seq<Cell>)
    ensures ParseTokens(RowTokens(row)) == Some(row)
    decreases |row|
  {
    if |row| > 0 {
      CellRoundTrip(row[0]);
      assert RowTokens(row)[1..] == RowTokens(row[1..]);
      TokensRoundTrip(row[1..]);
      assert [row[0]] + row[1..] == row;
    }
  }

  lemma {:induction false} LinesRoundTrip(g: seq<seq<Cell>>)
    requires forall i :: 0 <= i < |g| ==> |g[i]| > 0
    ensures ParseLines(RowTexts(g)) == Some(g)
    decreases |g|
  {
    if |g| > 0 {
      SplitJoin(' ', RowTokens(g[0]));
      TokensRoundTrip(g[0]);
      assert RowTexts(g)[1..] == RowTexts(g[1..]);
      LinesRoundTrip(g[1..]);
      assert [g[0]] + g[1..] == g;
    }
  }

  /** Reading the body text back gives the grid, whenever it has a row and no row is empty. */
  lemma GridRoundTrip(g: seq<seq<Cell>>)
    requires |g| > 0 && forall i :: 0 <= i < |g| ==> |g[i]| > 0
    ensures ParseGrid(ArrayToString(g)) == Some(g)
  {
    BodyLayout(g);
    LinesRoundTrip(g);
  }

  /** The empty grid and the grid of one empty row print alike, so only non-empty rows read back. */
  lemma EmptyRowAmbiguous()
    ensures ArrayToString([]) == ArrayToString([[]]) == ""
  {
  }
}

=== FILE: bounding_box.dfy ===
/**
 * The bounding-box indexer: maps an optional geographic box to nearest-sample indices on
 * the latitude and longitude axes (`get_bounding_box_indices`, `_find_nearest_index`).
 */
module BoundingBox {
  import opened Results
  import opened Netcdf

  function Abs(x: real): real {
    if x < 0.0 then -x else x
  }

  /** `abs(sample - value)`, the distance argmin minimises. */
  function Dist(sample: real, value: real): real {
    Abs(sample - value)
  }

  /**
   * `i` is the position `argmin` reports for `abs(a - v)`: no sample is closer to `v`,
   * and every earlier sample is strictly farther (argmin returns the first minimum).
   */
  predicate IsFirstNearest(a: seq<real>, v: real, i: int) {
    && 0 <= i < |a|
    && (forall j :: 0 <= j < |a| ==> Dist(a[i], v) <= Dist(a[j], v))
    && (forall j :: 0 <= j < i ==> Dist(a[j], v) > Dist(a[i], v))
  }

  /** The first position among the first `n` samples with the least distance to `v`. */
  function ArgminUpTo(a: seq<real>, v: real, n: nat): (i: nat)
    requires 0 < n <= |a|
    ensures i < n
    ensures forall j :: 0 <= j < n ==> Dist(a[i], v) <= Dist(a[j], v)
    ensures forall j :: 0 <= j < i ==> Dist(a[j], v) > Dist(a[i], v)
    decreases n
  {
    if n == 1 then 0
    else
      var k := ArgminUpTo(a, v, n - 1);
      if Dist(a[n - 1], v) < Dist(a[k], v) then n - 1 else k
  }

  /** `_find_nearest_index`: argmin over an empty axis raises ValueError. */
  function FindNearestIndex(a: seq<real>, v: real): (r: Result<nat, Fault>)
    ensures r.Failure? <==> |a| == 0
    ensures r.Failure? ==> r.error == EmptyAxis
    ensures r.Ok? ==> IsFirstNearest(a, v, r.value)
  {
    if |a| == 0 then Failure(EmptyAxis) else Ok(ArgminUpTo(a, v, |a|))
  }

  /** The first-nearest position is unique, so the predicate pins down the search result. */
  lemma FirstNearestUnique(a: seq<real>, v: real, i: int, k: int)
    requires IsFirstNearest(a, v, i) && IsFirstNearest(a, v, k)
    ensures i == k
  {
    assert Dist(a[i], v) == Dist(a[k], v);
  }

  /** The search returns `i` exactly when `i` is the first nearest position. */
  lemma FindNearestCharacterised(a: seq<real>, v: real, i: int)
    ensures FindNearestIndex(a, v) == Ok(i) <==> IsFirstNearest(a, v, i)
  {
    var r := FindNearestIndex(a, v);
    if IsFirstNearest(a, v, i) {
      FirstNearestUnique(a, v, i, r.value);
    }
  }

  /** A query equal to a sample finds a sample with that value, at or before the query's own position. */
  lemma ExactSampleFound(a: seq<real>, v: real, k: int)
    requires 0 <= k < |a| && a[k] == v
    ensures FindNearestIndex(a, v).Ok?
    ensures var i := FindNearestIndex(a, v).value; a[i] == v && i <= k
  {
    var i := FindNearestIndex(a, v).value;
    assert Dist(a[i], v) <= Dist(a[k], v) == 0.0;
  }

  predicate StrictlyIncreasing(a: seq<real>) {
    forall i, j :: 0 <= i < j < |a| ==> a[i] < a[j]
  }

  predicate StrictlyDecreasing(a: seq<real>) {
    forall i, j :: 0 <= i < j < |a| ==> a[i] > a[j]
  }

  /** On an ascending axis a query beyond either end clamps to that end's index. */
  lemma ClampsOnIncreasingAxis(a: seq<real>, v: real)
    requires |a| > 0 && StrictlyIncreasing(a)
    ensures v <= a[0] ==> FindNearestIndex(a, v) == Ok(0)
    ensures v >= a[|a| - 1] ==> FindNearestIndex(a, v) == Ok(|a| - 1)
  {
    if v <= a[0] {
      assert forall j :: 0 < j < |a| ==> Dist(a[j], v) > Dist(a[0], v);
    }
    if v >= a[|a| - 1] {
      assert forall j :: 0 <= j < |a| - 1 ==> Dist(a[j], v) > Dist(a[|a| - 1], v);
    }
  }

  /** On a descending axis a query beyond either end clamps to that end's index. */
  lemma ClampsOnDecreasingAxis(a: seq<real>, v: real)
    requires |a| > 0 && StrictlyDecreasing(a)
    ensures v >= a[0] ==> FindNearestIndex(a, v) == Ok(0)
    ensures v <= a[|a| - 1] ==> FindNearestIndex(a, v) == Ok(|a| - 1)
  {
    if v >= a[0] {
      assert forall j :: 0 < j < |a| ==> Dist(a[j], v) > Dist(a[0], v);
    }
    if v <= a[|a| - 1] {
      assert forall j :: 0 <= j < |a| - 1 ==> Dist(a[j], v) > Dist(a[|a| - 1], v);
    }
  }

  /** A requested box, in degrees, as the tuple `(north, south, east, west)`. */
  datatype BBox = BBox(north: real, south: real, east: real, west: real)

  /** Indices into the latitude axis (north, south) and the longitude axis (east, west). */
  datatype BBoxIndices = BBoxIndices(north: int, south: int, east: int, west: int)

  /** All four indices are positions of their own axis. */
  predicate ValidIndices(b: BBoxIndices, latCount: nat, lonCount: nat) {
    && 0 <= b.north < latCount && 0 <= b.south < latCount
    && 0 <= b.east < lonCount && 0 <= b.west < lonCount
  }

  /** The east/west adjustment: a negative longitude is moved up by 360 degrees. */
  function ShiftLongitude(x: real): (r: real)
    ensures x < 0.0 ==> r == x + 360.0
    ensures x >= 0.0 ==> r == x
  {
    if x < 0.0 then x + 360.0 else x
  }

  /**
   * `get_bounding_box_indices`: the whole extent when no box is given; otherwise the nearest
   * sample of each bound on its own axis, north and south as given, east and west shifted.
   */
  function Indices(lats: seq<real>, lons: seq<real>, bbox: Option<BBox>): (r: Result<BBoxIndices, Fault>)
    ensures bbox.None? ==> r == Ok(BBoxIndices(|lats| - 1, 0, |lons| - 1, 0))
    ensures bbox.Some? ==> (r.Failure? <==> |lats| == 0 || |lons| == 0)
    ensures bbox.Some? && r.Ok? ==>
              var b := bbox.value;
              && IsFirstNearest(lats, b.north, r.value.north)
              && IsFirstNearest(lats, b.south, r.value.south)
              && IsFirstNearest(lons, if b.east < 0.0 then b.east + 360.0 else b.east, r.value.east)
              && IsFirstNearest(lons, if b.west < 0.0 then b.west + 360.0 else b.west, r.value.west)
    ensures r.Ok? && |lats| > 0 && |lons| > 0 ==> ValidIndices(r.value, |lats|, |lons|)
  {
    match bbox
    case None => Ok(BBoxIndices(|lats| - 1, 0, |lons| - 1, 0))
    case Some(b) =>
      if |lats| == 0 || |lons| == 0 then Failure(EmptyAxis)
      else
        Ok(BBoxIndices(
          FindNearestIndex(lats, b.north).value,
          FindNearestIndex(lats, b.south).value,
          FindNearestIndex(lons, ShiftLongitude(b.east)).value,
          FindNearestIndex(lons, ShiftLongitude(b.west)).value))
  }

  /** With no box and non-empty axes the indices cover both axes end to end. */
  lemma FullExtentValid(lats: seq<real>, lons: seq<real>)
    requires |lats| > 0 && |lons| > 0
    ensures Indices(lats, lons, None).Ok?
    ensures var b := Indices(lats, lons, None).value;
              ValidIndices(b, |lats|, |lons|) && b.south == 0 && b.west == 0
              && b.north == |lats| - 1 && b.east == |lons| - 1
  {
  }

  /** A box lying wholly outside ascending axes clamps to the axis ends instead of failing. */
  lemma OutsideBoxClamps(lats: seq<real>, lons: seq<real>, b: BBox)
    requires |lats| > 0 && |lons| > 0 && StrictlyIncreasing(lats) && StrictlyIncreasing(lons)
    requires b.north >= lats[|lats| - 1] && b.south >= lats[|lats| - 1]
    requires 0.0 <= b.east <= lons[0] && 0.0 <= b.west <= lons[0]
    ensures Indices(lats, lons, Some(b)) == Ok(BBoxIndices(|lats| - 1, |lats| - 1, 0, 0))
  {
    ClampsOnIncreasingAxis(lats, b.north);
    ClampsOnIncreasingAxis(lats, b.south);
    ClampsOnIncreasingAxis(lons, b.east);
    ClampsOnIncreasingAxis(lons, b.west);
  }
}

=== FILE: conversion.dfy ===
/**
 * `create_ascii` without its I/O: the archive it would write, as a zip name and the
 * ordered (file name, file text) entries, or the error that stops the conversion.
 */
module Conversion {
  import opened Results
  import opened Netcdf
  import opened Coordinates
  import opened BoundingBox
  import opened Header
  import opened Slicing
  import opened Body
  import opened Naming
  import opened Text

  /** The arguments of `create_ascii`. */
  datatype Request = Request(
    inputFileName: string,
    variable: string,
    timesteps: Option<seq<int>>,
    bbox: Option<BBox>,
    noData: int,
    zipName: Option<string>,
    outputFormat: string)

  /** One raster file: its name and its text (header followed by body). */
  datatype Entry = Entry(fileName: string, text: string)

  /** The zip archive: its name and its files in the order they are added. */
  datatype Archive = Archive(name: string, entries: seq<Entry>)

  /** `len(data.variables['time'])`: the length of the time variable's first dimension. */
  function TimestepCount(variables: seq<Variable>): (r: Result<nat, Fault>)
    ensures Lookup(variables, TimeName).None? <==> r == Failure(UnknownVariable)
    ensures r == Failure(UnsizedTimeVariable) <==>
              Lookup(variables, TimeName).Some? && |Lookup(variables, TimeName).value.shape| == 0
    ensures r.Ok? <==> Lookup(variables, TimeName).Some? && |Lookup(variables, TimeName).value.shape| > 0
    ensures r.Ok? ==> r.value == Lookup(variables, TimeName).value.shape[0]
  {
    match Lookup(variables, TimeName)
    case None => Failure(UnknownVariable)
    case Some(v) => if |v.shape| == 0 then Failure(UnsizedTimeVariable) else Ok(v.shape[0])
  }

  /** The timesteps to convert; the time variable is only consulted when none are requested. */
  function StepsFor(variables: seq<Variable>, requested: Option<seq<int>>): (r: Result<seq<int>, Fault>)
    ensures requested.Some? && |requested.value| > 0 ==> r == Ok(requested.value)
    ensures requested.None? || |requested.value| == 0 ==>
              && (r.Ok? <==> TimestepCount(variables).Ok?)
              && (r.Failure? ==> r.error == TimestepCount(variables).error)
              && (r.Ok? ==> |r.value| == TimestepCount(variables).value
                            && forall k :: 0 <= k < |r.value| ==> r.value[k] == k)
  {
    if requested.Some? && |requested.value| > 0 then Ok(requested.value)
    else
      var count :- TimestepCount(variables);
      Ok(Timesteps(requested, count))
  }

  /** `data.variables['time'][time_step]`, the value the timestamp is rendered from. */
  function TimeValue(variables: seq<Variable>, t: int): (r: Result<real, Fault>)
    ensures Lookup(variables, TimeName).None? ==> r == Failure(UnknownVariable)
    ensures r.Ok? <==> && Lookup(variables, TimeName).Some?
                       && |Lookup(variables, TimeName).value.shape| == 1
                       && At(Lookup(variables, TimeName).value.samples, t).Some?
    ensures r.Ok? ==> At(Lookup(variables, TimeName).value.samples, t) == Some(r.value)
    ensures r == Failure(TimeNotScalar) <==>
              && Lookup(variables, TimeName).Some?
              && |Lookup(variables, TimeName).value.shape| > 1
              && IndexOk(t, Lookup(variables, TimeName).value.shape[0])
    ensures Lookup(variables, TimeName).Some? && r.Failure? && r != Failure(TimeNotScalar) ==> r == Failure(IndexOutOfRange)
  {
    match Lookup(variables, TimeName)
    case None => Failure(UnknownVariable)
    case Some(v) =>
      if |v.shape| == 0 then Failure(IndexOutOfRange)
      else if |v.shape| > 1 then
        if IndexOk(t, v.shape[0]) then Failure(TimeNotScalar) else Failure(IndexOutOfRange)
      else
        match At(v.samples, t)
        case None => Failure(IndexOutOfRange)
        case Some(x) => Ok(x)
  }

  /** Everything one conversion call fixes before its timestep loop. */
  datatype Plan = Plan(
    variable: string, names: AxisNames, b: BBoxIndices, noData: int,
    headerText: string, ext: string)

  /** The file for one timestep: the sliced values under the shared header. */
  function EntryFor(variables: seq<Variable>, plan: Plan, t: int, stamp: real -> string): (r: Result<Entry, Fault>)
    requires WellFormed(variables)
    ensures var values := GetValues(variables, plan.variable, plan.names, t, plan.b, plan.noData);
            && (r.Ok? <==> values.Ok? && TimeValue(variables, t).Ok?)
            && (values.Failure? ==> r == Failure(values.error))
            && (values.Ok? && TimeValue(variables, t).Failure? ==> r == Failure(TimeValue(variables, t).error))
    ensures r.Ok? ==>
              var values := GetValues(variables, plan.variable, plan.names, t, plan.b, plan.noData);
              && r.value.fileName == OutputFileName(plan.variable, stamp(TimeValue(variables, t).value), plan.ext)
              && r.value.text == plan.headerText + ArrayToString(values.value)
  {
    var values :- GetValues(variables, plan.variable, plan.names, t, plan.b, plan.noData);
    var time :- TimeValue(variables, t);
    Ok(Entry(OutputFileName(plan.variable, stamp(time), plan.ext), plan.headerText + ArrayToString(values)))
  }

  /** Results in order, stopping at the first failure: the shape of a loop that raises. */
  function Collect<T, E>(results: seq<Result<T, E>>): (r: Result<seq<T>, E>)
    ensures r.Ok? <==> forall k :: 0 <= k < |results| ==> results[k].Ok?
    ensures r.Ok? ==> |r.value| == |results| && forall k :: 0 <= k < |results| ==> r.value[k] == results[k].value
    ensures r.Failure? ==> exists k :: 0 <= k < |results| && results[k].Failure? && results[k].error == r.error
                                       && forall i :: 0 <= i < k ==> results[i].Ok?
  {
    if |results| == 0 then Ok([])
    else
      var first :- results[0];
      var rest := Collect(results[1..]);
      assert forall k :: 1 <= k < |results| ==> results[1..][k - 1] == results[k];
      if rest.Failure? then Failure(rest.error)
      else Ok([first] + rest.value)
  }

  /** The loop over timesteps: one entry per timestep in order, stopping at the first error. */
  function Entries(variables: seq<Variable>, plan: Plan, steps: seq<int>, stamp: real -> string)
    : (r: Result<seq<Entry>, Fault>)
    requires WellFormed(variables)
    ensures r.Ok? <==> forall k :: 0 <= k < |steps| ==> EntryFor(variables, plan, steps[k], stamp).Ok?
    ensures r.Ok? ==> |r.value| == |steps|
                      && forall k :: 0 <= k < |steps| ==> r.value[k] == EntryFor(variables, plan, steps[k], stamp).value
  {
    var results := seq(|steps|, k requires 0 <= k < |steps| => EntryFor(variables, plan, steps[k], stamp));
    assert forall k :: 0 <= k < |steps| ==> results[k] == EntryFor(variables, plan, steps[k], stamp);
    Collect(results)
  }

  /** The part of `create_ascii` before its loop: resolve the axes, index the box, render the header. */
  function PlanFor(ds: Dataset, req: Request, showReal: real -> string): (r: Result<Plan, Fault>)
    ensures LatsAndLons(ds.variables).Failure? ==> r == Failure(LatsAndLons(ds.variables).error)
    ensures LatsAndLons(ds.variables).Ok? ==>
              var lats := LatsAndLons(ds.variables).value.0;
              var lons := LatsAndLons(ds.variables).value.1;
              var b := Indices(lats, lons, req.bbox);
              && (b.Failure? ==> r == Failure(b.error))
              && (b.Ok? && BuildHeader(lats, lons, b.value, req.noData).Failure? ==>
                    r == Failure(BuildHeader(lats, lons, b.value, req.noData).error))
              && (b.Ok? && BuildHeader(lats, lons, b.value, req.noData).Ok? ==> r.Ok?)
    ensures r.Ok? ==>
              var lats := LatsAndLons(ds.variables).value.0;
              var lons := LatsAndLons(ds.variables).value.1;
              var resolved := Resolve(ds.variables);
              && LatsAndLons(ds.variables).Ok?
              && Indices(lats, lons, req.bbox).Ok?
              && BuildHeader(lats, lons, Indices(lats, lons, req.bbox).value, req.noData).Ok?
              && r.value == Plan(
                   req.variable,
                   AxisNames(resolved.lat.value.name, resolved.lon.value.name),
                   Indices(lats, lons, req.bbox).value,
                   req.noData,
                   HeaderText(BuildHeader(lats, lons, Indices(lats, lons, req.bbox).value, req.noData).value,
                              DialectFor(req.outputFormat), showReal),
                   Extension(req.outputFormat))
  {
    var axes :- LatsAndLons(ds.variables);
    var lats, lons := axes.0, axes.1;
    var b :- Indices(lats, lons, req.bbox);
    var h :- BuildHeader(lats, lons, b, req.noData);
    var resolved := Resolve(ds.variables);
    Ok(Plan(req.variable, AxisNames(resolved.lat.value.name, resolved.lon.value.name), b, req.noData,
            HeaderText(h, DialectFor(req.outputFormat), showReal), Extension(req.outputFormat)))
  }

  /** `create_ascii`: plan the conversion, then write one entry per timestep. */
  function Convert(ds: Dataset, req: Request, stamp: real -> string, showReal: real -> string)
    : (r: Result<Archive, Fault>)
    requires WellFormed(ds.variables)
    ensures LatsAndLons(ds.variables).Failure? ==> r == Failure(LatsAndLons(ds.variables).error)
    ensures r.Ok? ==> r.value.name == ZipName(req.zipName, req.inputFileName, req.variable)
  {
    var plan :- PlanFor(ds, req, showReal);
    var steps :- StepsFor(ds.variables, req.timesteps);
    var entries :- Entries(ds.variables, plan, steps, stamp);
    Ok(Archive(ZipName(req.zipName, req.inputFileName, req.variable), entries))
  }

  /**
   * A successful conversion holds exactly one entry per timestep, in timestep order, each
   * named `{variable}-{timestamp}.{ext}` and each beginning with the one header text.
   */
  lemma ArchiveEntries(ds: Dataset, req: Request, stamp: real -> string, showReal: real -> string)
    requires WellFormed(ds.variables)
    requires Convert(ds, req, stamp, showReal).Ok?
    ensures PlanFor(ds, req, showReal).Ok? && StepsFor(ds.variables, req.timesteps).Ok?
    ensures var a := Convert(ds, req, stamp, showReal).value;
            var steps := StepsFor(ds.variables, req.timesteps).value;
            var headerText := PlanFor(ds, req, showReal).value.headerText;
            && |a.entries| == |steps|
            && forall k :: 0 <= k < |steps| ==>
                 && TimeValue(ds.variables, steps[k]).Ok?
                 && a.entries[k].fileName
                    == OutputFileName(req.variable, stamp(TimeValue(ds.variables, steps[k]).value), Extension(req.outputFormat))
                 && StartsWith(a.entries[k].text, headerText)
  {
    var a := Convert(ds, req, stamp, showReal).value;
    var steps := StepsFor(ds.variables, req.timesteps).value;
    var headerText := PlanFor(ds, req, showReal).value.headerText;
    forall k | 0 <= k < |steps|
      ensures StartsWith(a.entries[k].text, headerText)
    {
      assert a.entries[k].text[..|headerText|] == headerText;
    }
  }

  /** A default step list reads its timestamps from the one-dimensional `time` variable, one per sample in order. */
  lemma DefaultStepTimes(variables: seq<Variable>, requested: Option<seq<int>>)
    requires WellFormed(variables)
    requires Lookup(variables, TimeName).Some? && |Lookup(variables, TimeName).value.shape| == 1
    requires requested.None? || |requested.value| == 0
    ensures StepsFor(variables, requested).Ok?
    ensures var steps := StepsFor(variables, requested).value;
            var tv := Lookup(variables, TimeName).value;
            && |steps| == |tv.samples|
            && forall k :: 0 <= k < |steps| ==> TimeValue(variables, steps[k]) == Ok(tv.samples[k])
  {
    LookupValid(variables, TimeName);
  }

  /** A dataset in the conventional layout: resolvable one-dimensional axes of two or more samples, a
      (time, lat, lon) variable over them, and a one-dimensional time variable of matching length. */
  predicate Conventional(ds: Dataset, variable: string) {
    var axes := Resolve(ds.variables);
    && WellFormed(ds.variables)
    && axes.lat.Some? && axes.lon.Some?
    && |axes.lat.value.shape| == 1 && |axes.lon.value.shape| == 1
    && |axes.lat.value.samples| >= 2 && |axes.lon.value.samples| >= 2
    && Lookup(ds.variables, variable).Some?
    && var v := Lookup(ds.variables, variable).value;
       && StandardLayout(v, AxisNames(axes.lat.value.name, axes.lon.value.name))
       && v.shape[1] == |axes.lat.value.samples| && v.shape[2] == |axes.lon.value.samples|
       && Lookup(ds.variables, TimeName).Some?
       && var tv := Lookup(ds.variables, TimeName).value;
          |tv.shape| == 1 && tv.shape[0] == v.shape[0]
  }

  /**
   * `g` is timestep `k` of a (time, lat, lon) variable over its full extent: one row per
   * latitude, one value per longitude, each the element at `(k, i, j)` with masked ones filled.
   */
  predicate FullGrid(g: seq<seq<Cell>>, v: Variable, k: nat, noData: int) {
    && v.Valid() && |v.shape| == 3 && k < v.shape[0] && v.shape[1] > 0 && v.shape[2] > 0
    && |g| == v.shape[1]
    && (forall i :: 0 <= i < |g| ==> |g[i]| == v.shape[2])
    && forall i: nat, j: nat :: i < |g| && j < |g[i]| ==>
         InBounds([k, i, j], v.shape) && g[i][j] == Filled(CellAt(v, [k, i, j]), noData)
  }

  /** After the header, the text reads back as timestep `k` of `v` over its full extent. */
  predicate BodyReadsBack(text: string, headerText: string, v: Variable, k: nat, noData: int) {
    && StartsWith(text, headerText)
    && var g := ParseGrid(text[|headerText|..]);
       g.Some? && FullGrid(g.value, v, k, noData)
  }

  /** With no box, and both axes found one-dimensional with two or more samples, the plan spans both axes under the resolved names. */
  lemma FullExtentPlan(ds: Dataset, req: Request, showReal: real -> string)
    requires LatsAndLons(ds.variables).Ok? && req.bbox.None?
    requires |Resolve(ds.variables).lat.value.shape| == 1 && |Resolve(ds.variables).lon.value.shape| == 1
    requires |LatsAndLons(ds.variables).value.0| >= 2 && |LatsAndLons(ds.variables).value.1| >= 2
    ensures PlanFor(ds, req, showReal).Ok?
    ensures var axes := Resolve(ds.variables);
            var plan := PlanFor(ds, req, showReal).value;
            && plan.variable == req.variable
            && plan.names == AxisNames(axes.lat.value.name, axes.lon.value.name)
            && plan.b == BBoxIndices(|axes.lat.value.samples| - 1, 0, |axes.lon.value.samples| - 1, 0)
  {
    var lats, lons := LatsAndLons(ds.variables).value.0, LatsAndLons(ds.variables).value.1;
    var b := BBoxIndices(|lats| - 1, 0, |lons| - 1, 0);
    assert Indices(lats, lons, None) == Ok(b);
    assert BuildHeader(lats, lons, b, req.noData).Ok?;
  }

  /** With no box, a conventional dataset's plan spans both axes under the resolved names. */
  lemma ConventionalPlan(ds: Dataset, req: Request, showReal: real -> string)
    requires Conventional(ds, req.variable) && req.bbox.None?
    ensures PlanFor(ds, req, showReal).Ok?
    ensures var axes := Resolve(ds.variables);
            var plan := PlanFor(ds, req, showReal).value;
            && plan.variable == req.variable
            && plan.names == AxisNames(axes.lat.value.name, axes.lon.value.name)
            && plan.b == BBoxIndices(|axes.lat.value.samples| - 1, 0, |axes.lon.value.samples| - 1, 0)
  {
    FullExtentPlan(ds, req, showReal);
  }

  /** A grid whose cells are the filled elements over the full extent is that timestep's full grid. */
  lemma FullGridOf(g: seq<seq<Cell>>, v: Variable, k: nat, b: BBoxIndices, noData: int)
    requires v.Valid() && |v.shape| == 3 && k < v.shape[0] && v.shape[1] > 0 && v.shape[2] > 0
    requires b == BBoxIndices(v.shape[1] - 1, 0, v.shape[2] - 1, 0)
    requires |g| == v.shape[1] && forall i :: 0 <= i < |g| ==> |g[i]| == v.shape[2]
    requires forall i, j :: 0 <= i < |g| && 0 <= j < |g[i]| ==> FilledCell(v, g, k, b, noData, i, j)
    ensures FullGrid(g, v, k, noData)
  {
    assert NormalIndex(k, v.shape[0]) == k;
    forall i: nat, j: nat | i < |g| && j < |g[i]|
      ensures InBounds([k, i, j], v.shape) && g[i][j] == Filled(CellAt(v, [k, i, j]), noData)
    {
      assert FilledCell(v, g, k, b, noData, i, j);
    }
  }

  /** Over the full extent, the values of timestep `k` of a (time, lat, lon) variable are its full grid, masked cells filled. */
  lemma FullExtentValues(variables: seq<Variable>, name: string, names: AxisNames, k: nat, b: BBoxIndices, noData: int)
    requires WellFormed(variables) && Lookup(variables, name).Some?
    requires var v := Lookup(variables, name).value;
             && StandardLayout(v, names) && k < v.shape[0] && v.shape[1] > 0 && v.shape[2] > 0
             && b == BBoxIndices(v.shape[1] - 1, 0, v.shape[2] - 1, 0)
    ensures var r := GetValues(variables, name, names, k, b, noData);
            r.Ok? && FullGrid(r.value, Lookup(variables, name).value, k, noData)
  {
    var v := Lookup(variables, name).value;
    StandardValues(variables, name, names, k, b, noData);
    FullGridOf(GetValues(variables, name, names, k, b, noData).value, v, k, b, noData);
  }

  /** For a conventional dataset the values of a timestep are that timestep's full grid, masked cells filled. */
  lemma ConventionalValues(ds: Dataset, plan: Plan, k: nat)
    requires Conventional(ds, plan.variable)
    requires var axes := Resolve(ds.variables);
             && plan.names == AxisNames(axes.lat.value.name, axes.lon.value.name)
             && plan.b == BBoxIndices(|axes.lat.value.samples| - 1, 0, |axes.lon.value.samples| - 1, 0)
    requires k < Lookup(ds.variables, TimeName).value.shape[0]
    ensures var r := GetValues(ds.variables, plan.variable, plan.names, k, plan.b, plan.noData);
            && r.Ok?
            && FullGrid(r.value, Lookup(ds.variables, plan.variable).value, k, plan.noData)
  {
    var v := Lookup(ds.variables, plan.variable).value;
    assert plan.b == BBoxIndices(v.shape[1] - 1, 0, v.shape[2] - 1, 0);
    FullExtentValues(ds.variables, plan.variable, plan.names, k, plan.b, plan.noData);
  }

  /** One timestep of a conventional dataset under its full-extent plan. */
  lemma ConventionalEntry(ds: Dataset, plan: Plan, k: nat, stamp: real -> string)
    requires Conventional(ds, plan.variable)
    requires var axes := Resolve(ds.variables);
             && plan.names == AxisNames(axes.lat.value.name, axes.lon.value.name)
             && plan.b == BBoxIndices(|axes.lat.value.samples| - 1, 0, |axes.lon.value.samples| - 1, 0)
    requires k < Lookup(ds.variables, TimeName).value.shape[0]
    ensures EntryFor(ds.variables, plan, k, stamp).Ok?
    ensures var e := EntryFor(ds.variables, plan, k, stamp).value;
            var tv := Lookup(ds.variables, TimeName).value;
            && k < |tv.samples|
            && e.fileName == OutputFileName(plan.variable, stamp(tv.samples[k]), plan.ext)
            && BodyReadsBack(e.text, plan.headerText, Lookup(ds.variables, plan.variable).value, k, plan.noData)
  {
    LookupValid(ds.variables, TimeName);
    ConventionalValues(ds, plan, k);
    var g := GetValues(ds.variables, plan.variable, plan.names, k, plan.b, plan.noData).value;
    GridRoundTrip(g);
    var e := EntryFor(ds.variables, plan, k, stamp).value;
    assert e.text[..|plan.headerText|] == plan.headerText;
    assert e.text[|plan.headerText|..] == ArrayToString(g);
  }

  /** Every timestep of a conventional dataset, in order, converts under its full-extent plan. */
  lemma ConventionalEntries(ds: Dataset, plan: Plan, steps: seq<int>, stamp: real -> string)
    requires Conventional(ds, plan.variable)
    requires var axes := Resolve(ds.variables);
             && plan.names == AxisNames(axes.lat.value.name, axes.lon.value.name)
             && plan.b == BBoxIndices(|axes.lat.value.samples| - 1, 0, |axes.lon.value.samples| - 1, 0)
    requires |steps| == Lookup(ds.variables, TimeName).value.shape[0]
    requires forall k :: 0 <= k < |steps| ==> steps[k] == k
    ensures Entries(ds.variables, plan, steps, stamp).Ok?
    ensures var entries := Entries(ds.variables, plan, steps, stamp).value;
            var tv := Lookup(ds.variables, TimeName).value;
            && |entries| == |tv.samples|
            && forall k :: 0 <= k < |entries| ==>
                 && entries[k].fileName == OutputFileName(plan.variable, stamp(tv.samples[k]), plan.ext)
                 && BodyReadsBack(entries[k].text, plan.headerText, Lookup(ds.variables, plan.variable).value, k, plan.noData)
  {
    LookupValid(ds.variables, TimeName);
    forall k | 0 <= k < |steps|
      ensures EntryFor(ds.variables, plan, steps[k], stamp).Ok?
      ensures var e := EntryFor(ds.variables, plan, steps[k], stamp).value;
              var tv := Lookup(ds.variables, TimeName).value;
              && k < |tv.samples|
              && e.fileName == OutputFileName(plan.variable, stamp(tv.samples[k]), plan.ext)
              && BodyReadsBack(e.text, plan.headerText, Lookup(ds.variables, plan.variable).value, k, plan.noData)
    {
      ConventionalEntry(ds, plan, k, stamp);
    }
  }

  /**
   * With no box and no timestep list, a conventional dataset converts without error into one
   * entry per time sample, named after that sample, whose body after the header reads back
   * as that timestep of the variable over both full axes, with masked cells filled.
   */
  lemma ConventionalConversion(ds: Dataset, req: Request, stamp: real -> string, showReal: real -> string)
    requires Conventional(ds, req.variable)
    requires req.bbox.None? && req.timesteps.None?
    ensures Convert(ds, req, stamp, showReal).Ok?
    ensures PlanFor(ds, req, showReal).Ok?
    ensures var a := Convert(ds, req, stamp, showReal).value;
            var tv := Lookup(ds.variables, TimeName).value;
            && |a.entries| == |tv.samples|
            && forall k :: 0 <= k < |a.entries| ==>
                 && a.entries[k].fileName == OutputFileName(req.variable, stamp(tv.samples[k]), Extension(req.outputFormat))
                 && BodyReadsBack(a.entries[k].text, PlanFor(ds, req, showReal).value.headerText,
                                  Lookup(ds.variables, req.variable).value, k, req.noData)
  {
    LookupValid(ds.variables, TimeName);
    ConventionalPlan(ds, req, showReal);
    var plan := PlanFor(ds, req, showReal).value;
    var steps := StepsFor(ds.variables, req.timesteps).value;
    ConventionalEntries(ds, plan, steps, stamp);
    var entries := Entries(ds.variables, plan, steps, stamp).value;
    assert Convert(ds, req, stamp, showReal) == Ok(Archive(ZipName(req.zipName, req.inputFileName, req.variable), entries));
  }

  /** A small dataset in the conventional layout: one timestep over three latitudes and two longitudes. */
  const ExampleDataset: Dataset := Dataset([
    Variable(TimeName, None, [TimeName], [1], [Value(0)], [0.0]),
    Variable("lat", Some("degrees_north"), ["lat"], [3], [Value(10), Value(20), Value(30)], [10.0, 20.0, 30.0]),
    Variable("lon", Some("degrees_east"), ["lon"], [2], [Value(100), Value(110)], [100.0, 110.0]),
    Variable("temp", None, [TimeName, "lat", "lon"], [1, 3, 2],
             [Value(1), Value(2), Value(3), Value(4), Value(5), Value(6)], [])])

  /** The scan over the example dataset takes `lat` as latitude and `lon` as longitude. */
  lemma ExampleAxes()
    ensures Resolve(ExampleDataset.variables) == Axes(Some(ExampleDataset.variables[1]), Some(ExampleDataset.variables[2]))
  {
    var vs := ExampleDataset.variables;
    assert vs[1].units.value == LatUnits[0] && vs[2].units.value == LonUnits[0];
    assert !UnitsIn(vs[0], LonUnits) && !UnitsIn(vs[0], LatUnits);
    assert !UnitsIn(vs[1], LonUnits) by {
      assert forall i :: 0 <= i < |LonUnits| ==> LonUnits[i][|LonUnits[i]| - 1] != 'h';
    }
    assert !UnitsIn(vs[3], LonUnits) && !UnitsIn(vs[3], LatUnits);
    assert vs[..1][..0] == [] && vs[..2][..1] == vs[..1] && vs[..3][..2] == vs[..2] && vs[..4] == vs;
    assert Resolve(vs[..1]) == Axes(None, None);
    assert Resolve(vs[..2]) == Axes(Some(vs[1]), None);
    assert Resolve(vs[..3]) == Axes(Some(vs[1]), Some(vs[2]));
  }

  /** The example's variables are well formed and its `temp` and `time` variables are found by name. */
  lemma ExampleLookups()
    ensures WellFormed(ExampleDataset.variables)
    ensures Lookup(ExampleDataset.variables, "temp") == Some(ExampleDataset.variables[3])
    ensures Lookup(ExampleDataset.variables, TimeName) == Some(ExampleDataset.variables[0])
  {
    var vs := ExampleDataset.variables;
    assert Product(vs[3].shape) == 6 && Product(vs[0].shape) == 1;
    assert Product(vs[1].shape) == 3 && Product(vs[2].shape) == 2;
    assert vs[0].name != "temp" && vs[1].name != "temp" && vs[2].name != "temp";
  }

  /** The example dataset is in the conventional layout, so a default conversion of it succeeds. */
  lemma ExampleIsConventional()
    ensures Conventional(ExampleDataset, "temp")
  {
    ExampleAxes();
    ExampleLookups();
    var vs := ExampleDataset.variables;
    assert StandardLayout(vs[3], AxisNames("lat", "lon"));
  }
}

=== FILE: coordinates.dfy ===
/**
 * The coordinate resolver: finds the latitude and longitude variables by their `units`
 * attribute (`get_lat_lon_variables`, `get_variable_units`, `get_lats_and_lons`).
 * The names the Python code keeps in module globals are returned here as values.
 */
module Coordinates {
  import opened Results
  import opened Netcdf

  /** Unit spellings that mark a latitude variable. */
  const LatUnits: seq<string> := ["degrees_north", "degree_north", "degree_N", "degrees_N", "degreeN", "degreesN"]

  /** Unit spellings that mark a longitude variable. */
  const LonUnits: seq<string> := ["degrees_east", "degree_east", "degree_E", "degrees_E", "degreeE", "degreesE"]

  datatype Axis = Latitude | Longitude

  /** The variable's `units` attribute is present and is one of `allowed`; an absent attribute matches nothing. */
  predicate UnitsIn(v: Variable, allowed: seq<string>) {
    v.units.Some? && v.units.value in allowed
  }

  /**
   * Whether the scan takes `v` as the given axis: longitude units win, and a
   * variable is only tested for latitude when it is not taken as longitude.
   */
  predicate TakenAs(v: Variable, axis: Axis) {
    match axis
    case Longitude => UnitsIn(v, LonUnits)
    case Latitude => !UnitsIn(v, LonUnits) && UnitsIn(v, LatUnits)
  }

  /** `i` is the last position whose variable the scan takes as `axis`. */
  predicate IsLastTaken(variables: seq<Variable>, i: int, axis: Axis) {
    0 <= i < |variables| && TakenAs(variables[i], axis)
    && forall j :: i < j < |variables| ==> !TakenAs(variables[j], axis)
  }

  /** What a scan over the variables settled on for one axis: the last variable taken, or None. */
  ghost predicate ChoiceOf(variables: seq<Variable>, choice: Option<Variable>, axis: Axis) {
    match choice
    case None => forall i :: 0 <= i < |variables| ==> !TakenAs(variables[i], axis)
    case Some(v) => exists i :: IsLastTaken(variables, i, axis) && variables[i] == v
  }

  /** The resolved coordinate variables; their names replace `LAT_VAR_NAME` and `LON_VAR_NAME`. */
  datatype Axes = Axes(lat: Option<Variable>, lon: Option<Variable>)

  /** A last variable the scan does not take as `axis` leaves the choice for `axis` as it was. */
  lemma ChoiceKept(variables: seq<Variable>, choice: Option<Variable>, axis: Axis)
    requires |variables| > 0 && !TakenAs(variables[|variables| - 1], axis)
    requires ChoiceOf(variables[..|variables| - 1], choice, axis)
    ensures ChoiceOf(variables, choice, axis)
  {
    var n := |variables| - 1;
    if choice.Some? {
      var i :| IsLastTaken(variables[..n], i, axis) && variables[..n][i] == choice.value;
      assert IsLastTaken(variables, i, axis);
    } else {
      forall i | 0 <= i < |variables|
        ensures !TakenAs(variables[i], axis)
      {
        if i < n {
          assert variables[..n][i] == variables[i];
        }
      }
    }
  }

  /** `get_lat_lon_variables`: one pass over the variables in declaration order. */
  function Resolve(variables: seq<Variable>): (r: Axes)
    ensures ChoiceOf(variables, r.lat, Latitude)
    ensures ChoiceOf(variables, r.lon, Longitude)
    decreases |variables|
  {
    if |variables| == 0 then Axes(None, None)
    else
      var n := |variables| - 1;
      var earlier := Resolve(variables[..n]);
      var v := variables[n];
      if UnitsIn(v, LonUnits) then
        ChoiceKept(variables, earlier.lat, Latitude);
        assert IsLastTaken(variables, n, Longitude);
        earlier.(lon := Some(v))
      else if UnitsIn(v, LatUnits) then
        ChoiceKept(variables, earlier.lon, Longitude);
        assert IsLastTaken(variables, n, Latitude);
        earlier.(lat := Some(v))
      else
        ChoiceKept(variables, earlier.lat, Latitude);
        ChoiceKept(variables, earlier.lon, Longitude);
        earlier
  }

  /** Only a variable with a `units` attribute from the matching list is ever chosen, and never a longitude as latitude. */
  lemma ChosenHaveUnits(variables: seq<Variable>)
    ensures Resolve(variables).lat.Some? ==>
              var u := Resolve(variables).lat.value.units; u.Some? && u.value in LatUnits && u.value !in LonUnits
    ensures Resolve(variables).lon.Some? ==>
              var u := Resolve(variables).lon.value.units; u.Some? && u.value in LonUnits
  {
    var r := Resolve(variables);
    if r.lat.Some? {
      var i :| IsLastTaken(variables, i, Latitude) && variables[i] == r.lat.value;
    }
    if r.lon.Some? {
      var i :| IsLastTaken(variables, i, Longitude) && variables[i] == r.lon.value;
    }
  }

  /**
   * A chosen one-dimensional axis reads as many samples as its single dimension is long,
   * which is the `len()` of `lat_var[:]` or `lon_var[:]`.
   */
  lemma ChosenAxisLengths(variables: seq<Variable>)
    requires forall i :: 0 <= i < |variables| ==> variables[i].Valid()
    ensures var lat := Resolve(variables).lat;
            lat.Some? && |lat.value.shape| == 1 ==> |lat.value.samples| == lat.value.shape[0]
    ensures var lon := Resolve(variables).lon;
            lon.Some? && |lon.value.shape| == 1 ==> |lon.value.samples| == lon.value.shape[0]
  {
    var r := Resolve(variables);
    if r.lat.Some? {
      var i :| IsLastTaken(variables, i, Latitude) && variables[i] == r.lat.value;
    }
    if r.lon.Some? {
      var i :| IsLastTaken(variables, i, Longitude) && variables[i] == r.lon.value;
    }
  }

  /** `get_lats_and_lons`: the two axes' samples, or the error `None[:]` raises for the first one missing. */
  function LatsAndLons(variables: seq<Variable>): (r: Result<(seq<real>, seq<real>), Fault>)
    ensures r.Ok? <==> Resolve(variables).lat.Some? && Resolve(variables).lon.Some?
    ensures r.Ok? ==> r.value == (Resolve(variables).lat.value.samples, Resolve(variables).lon.value.samples)
    ensures r == Failure(LatitudeNotFound) <==> forall i :: 0 <= i < |variables| ==> !TakenAs(variables[i], Latitude)
  {
    var axes := Resolve(variables);
    if axes.lat.None? then Failure(LatitudeNotFound)
    else if axes.lon.None? then Failure(LongitudeNotFound)
    else Ok((axes.lat.value.samples, axes.lon.value.samples))
  }
}

=== FILE: decimal.dfy ===
/** Decimal rendering of integers, as Python's `str(int)`, and the matching parser. */
module Decimal {
  import opened Results

  predicate IsDigit(c: char) {
    '0' <= c <= '9'
  }

  predicate AllDigits(s: string) {
    forall i :: 0 <= i < |s| ==> IsDigit(s[i])
  }

  function DigitChar(d: nat): (c: char)
    requires d < 10
    ensures IsDigit(c)
  {
    (('0' as int) + d) as char
  }

  function DigitValue(c: char): (d: nat)
    requires IsDigit(c)
    ensures d < 10
  {
    (c as int) - ('0' as int)
  }

  /** Decimal digits of `n`, most significant first, without leading zeros. */
  function NatToString(n: nat): (s: string)
    ensures |s| >= 1 && AllDigits(s)
    decreases n
  {
    if n < 10 then [DigitChar(n)] else NatToString(n / 10) + [DigitChar(n % 10)]
  }

  /** `str(n)` for a Python integer. */
  function IntToString(n: int): (s: string)
    ensures |s| >= 1
    ensures forall i :: 0 <= i < |s| ==> IsDigit(s[i]) || s[i] == '-'
    ensures n >= 0 <==> AllDigits(s)
  {
    if n < 0 then
      var s := "-" + NatToString(-n);
      assert !IsDigit(s[0]);
      s
    else NatToString(n)
  }

  /** The number a non-empty run of digits denotes. */
  function DigitsValue(s: string): nat
    requires AllDigits(s)
    decreases |s|
  {
    if |s| == 0 then 0 else DigitsValue(s[..|s| - 1]) * 10 + DigitValue(s[|s| - 1])
  }

  /** `int(s)` restricted to an optional minus sign followed by digits; None where Python raises. */
  function ParseInt(s: string): Option<int> {
    if |s| >= 2 && s[0] == '-' && AllDigits(s[1..]) then
      var magnitude: int := DigitsValue(s[1..]);
      Some(-magnitude)
    else if |s| >= 1 && AllDigits(s) then Some(DigitsValue(s))
    else None
  }

  lemma {:induction false} NatToStringValue(n: nat)
    ensures DigitsValue(NatToString(n)) == n
    decreases n
  {
    var s := NatToString(n);
    if n >= 10 {
      NatToStringValue(n / 10);
      assert s[..|s| - 1] == NatToString(n / 10);
    }
  }

  /** Parsing the rendering of an integer gives the integer back. */
  lemma IntRoundTrip(n: int)
    ensures ParseInt(IntToString(n)) == Some(n)
  {
    if n < 0 {
      NatToStringValue(-n);
      assert IntToString(n)[1..] == NatToString(-n);
    } else {
      NatToStringValue(n);
    }
  }
}

=== FILE: findings.dfy ===
/**
 * Two header defects of the code as written, each shown on a concrete input, and the
 * corrected definitions with the property the defect breaks proved of them.
 */
module Findings {
  import opened Results
  import opened Netcdf
  import opened BoundingBox
  import opened Header
  import opened Slicing
  import opened Conversion

  /** The axes and the (time, lat, lon) variable of the example dataset: three latitudes, two longitudes, one timestep. */
  const ExampleLats: seq<real> := ExampleDataset.variables[1].samples
  const ExampleLons: seq<real> := ExampleDataset.variables[2].samples
  const ExampleVariable: Variable := ExampleDataset.variables[3]

  /**
   * As written, `rows` counts longitude indices, but the body has one line per latitude:
   * on three latitudes and two longitudes the header announces 2 rows over a 3-line body.
   */
  lemma RowsFollowLongitude()
    ensures var b := Indices(ExampleLats, ExampleLons, None).value;
            var h := BuildHeader(ExampleLats, ExampleLons, b, -9999).value;
            var g := Extract(ExampleVariable, SliceSpecs(ExampleVariable.dimensions, AxisNames("lat", "lon"), 0, b));
            && g.Ok? && |g.value| == 3 && h.rows == 2 && h.rows != |g.value|
  {
    var b := Indices(ExampleLats, ExampleLons, None).value;
    assert Product(ExampleVariable.shape) == 6;
    StandardSlice(ExampleVariable, AxisNames("lat", "lon"), 0, b);
  }

  /** The header with `rows` counted along latitude and `cols` along longitude. */
  function BuildHeaderCorrected(lats: seq<real>, lons: seq<real>, b: BBoxIndices, noData: int)
    : (r: Result<RasterHeader, Fault>)
    ensures r.Ok? <==> BuildHeader(lats, lons, b, noData).Ok?
  {
    var h :- BuildHeader(lats, lons, b, noData);
    Ok(h.(rows := 1 + IndexDistance(b.north, b.south), cols := 1 + IndexDistance(b.east, b.west)))
  }

  /**
   * With the corrected counts, a (time, lat, lon) variable sliced by south <= north and
   * west <= east has exactly `rows` body lines of exactly `cols` values each.
   */
  lemma CorrectedCountsMatchBody(v: Variable, names: AxisNames, t: int,
                                 lats: seq<real>, lons: seq<real>, b: BBoxIndices, noData: int)
    requires v.Valid() && StandardLayout(v, names) && IndexOk(t, v.shape[0])
    requires |lats| >= 2 && |lons| >= 2 && ValidIndices(b, |lats|, |lons|)
    requires b.south <= b.north < v.shape[1] && b.west <= b.east < v.shape[2]
    ensures BuildHeaderCorrected(lats, lons, b, noData).Ok?
    ensures Extract(v, SliceSpecs(v.dimensions, names, t, b)).Ok?
    ensures var h := BuildHeaderCorrected(lats, lons, b, noData).value;
            var g := Extract(v, SliceSpecs(v.dimensions, names, t, b)).value;
            && h.rows == |g|
            && forall i :: 0 <= i < |g| ==> |g[i]| == h.cols
  {
    StandardSlice(v, names, t, b);
  }

  /** The third and fourth ARC lines as written: `xllcorner` prints the south edge, `yllcorner` the west edge. */
  lemma {:induction false} ArcCornerAsWritten(h: RasterHeader, showReal: real -> string)
    requires OneLine(h, showReal)
    ensures ReadField(HeaderText(h, Arc, showReal), "xllcorner ") == Some(showReal(h.south))
    ensures ReadField(HeaderText(h, Arc, showReal), "yllcorner ") == Some(showReal(h.west))
  {
    HeaderSplits(h, Arc, showReal);
    var t := Template(Arc);
    assert t[2] == ("xllcorner ", South) && t[3] == ("yllcorner ", West);
    assert forall i :: 0 <= i < 3 ==> Diverge(t[i].0, t[3].0) && (i < 2 ==> Diverge(t[i].0, t[2].0));
    FindInTemplate(h, t, showReal, 2);
    FindInTemplate(h, t, showReal, 3);
  }

  /** On the worked example the value printed as the x (longitude) corner is a latitude, 90 degrees off the west edge. */
  lemma ArcCornerExample()
    ensures var b := Indices([10.0, 20.0, 30.0], [100.0, 110.0, 120.0], None).value;
            var h := BuildHeader([10.0, 20.0, 30.0], [100.0, 110.0, 120.0], b, -9999).value;
            Template(Arc)[2] == ("xllcorner ", South) && h.south == 5.0 && h.west == 95.0
  {
    ExampleHeader();
  }

  /** The ARC template with the x corner taken from the west edge and the y corner from the south edge. */
  function ArcTemplateCorrected(): seq<(string, Field)> {
    [("ncols ", Cols), ("nrows ", Rows), ("xllcorner ", West), ("yllcorner ", South),
     ("cellsize ", CellSize), ("NODATA_value ", NoData)]
  }

  /** With the corrected template, `xllcorner` reads back as the west (longitude) edge and `yllcorner` as the south (latitude) edge. */
  lemma {:induction false} ArcCornerCorrected(h: RasterHeader, showReal: real -> string)
    requires OneLine(h, showReal)
    ensures ReadField(TemplateText(h, ArcTemplateCorrected(), showReal), "xllcorner ") == Some(showReal(h.west))
    ensures ReadField(TemplateText(h, ArcTemplateCorrected(), showReal), "yllcorner ") == Some(showReal(h.south))
  {
    var t := ArcTemplateCorrected();
    assert LabelsOneLine(t);
    TemplateSplits(h, t, showReal);
    assert t[2] == ("xllcorner ", West) && t[3] == ("yllcorner ", South);
    assert forall i :: 0 <= i < 3 ==> Diverge(t[i].0, t[3].0) && (i < 2 ==> Diverge(t[i].0, t[2].0));
    FindInTemplate(h, t, showReal, 2);
    FindInTemplate(h, t, showReal, 3);
  }
}

=== FILE: header.dfy ===
/**
 * The header builder: corner coordinates half a cell outside the indexed samples, the
 * row and column counts, the cell size, and the GRASS or ARC text template (`write_header`).
 */
module Header {
  import opened Results
  import opened Netcdf
  import opened BoundingBox
  import opened Text
  import opened Decimal

  /** The values a header template is filled with. */
  datatype RasterHeader = RasterHeader(
    north: real, south: real, east: real, west: real,
    rows: nat, cols: nat, cellSize: real, noData: int)

  /** The inner `correct_coordinate`: a negative coordinate is returned as it is, and so is any other. */
  function CorrectCoordinate(coord: real): (r: real)
    ensures r == coord
  {
    if coord < 0.0 then coord else coord
  }

  /** `abs(i - j)` on indices. */
  function IndexDistance(i: int, j: int): nat {
    if i >= j then i - j else j - i
  }

  /** The header values, or the IndexError that indexing an axis raises (Python positions may be negative). */
  function BuildHeader(lats: seq<real>, lons: seq<real>, b: BBoxIndices, noData: int): (r: Result<RasterHeader, Fault>)
    ensures r.Failure? <==>
              || |lats| < 2 || |lons| < 2
              || At(lats, b.north).None? || At(lats, b.south).None?
              || At(lons, b.east).None? || At(lons, b.west).None?
    ensures r.Failure? ==> r.error == IndexOutOfRange
    ensures r.Ok? ==>
              && r.value.rows >= 1 && r.value.cols >= 1
              && r.value.rows == 1 + (if b.east >= b.west then b.east - b.west else b.west - b.east)
              && r.value.cols == 1 + (if b.north >= b.south then b.north - b.south else b.south - b.north)
              && r.value.cellSize == Dist(lons[1], lons[0])
              && r.value.noData == noData
    ensures r.Ok? && ValidIndices(b, |lats|, |lons|) ==>
              && r.value.north == lats[b.north] + Dist(lats[1], lats[0]) / 2.0
              && r.value.south == lats[b.south] - Dist(lats[1], lats[0]) / 2.0
              && r.value.east == lons[b.east] + Dist(lons[1], lons[0]) / 2.0
              && r.value.west == lons[b.west] - Dist(lons[1], lons[0]) / 2.0
  {
    if |lats| < 2 || |lons| < 2 then Failure(IndexOutOfRange)
    else
      var halfCellHeight := Abs(lats[1] - lats[0]) / 2.0;
      var halfCellWidth := Abs(lons[1] - lons[0]) / 2.0;
      match (At(lats, b.north), At(lats, b.south), At(lons, b.east), At(lons, b.west))
      case (Some(n), Some(s), Some(e), Some(w)) =>
        Ok(RasterHeader(
          n + halfCellHeight,
          s - halfCellHeight,
          CorrectCoordinate(e + halfCellWidth),
          CorrectCoordinate(w - halfCellWidth),
          1 + IndexDistance(b.east, b.west),
          1 + IndexDistance(b.north, b.south),
          halfCellWidth * 2.0,
          noData))
      case _ => Failure(IndexOutOfRange)
  }

  /** Samples `start + i * step` for `i` in `0 .. count`. */
  predicate Uniform(a: seq<real>, start: real, step: real) {
    forall i :: 0 <= i < |a| ==> a[i] == start + (i as real) * step
  }

  /**
   * On evenly spaced ascending axes the full-extent header spans exactly `cols` cell
   * heights north to south and `rows` cell widths east to west.
   */
  lemma FullExtentSpan(lats: seq<real>, lons: seq<real>, lat0: real, dLat: real, lon0: real, dLon: real, noData: int)
    requires |lats| >= 2 && |lons| >= 2 && dLat > 0.0 && dLon > 0.0
    requires Uniform(lats, lat0, dLat) && Uniform(lons, lon0, dLon)
    ensures var h := BuildHeader(lats, lons, Indices(lats, lons, None).value, noData);
              && h.Ok?
              && h.value.north - h.value.south == (h.value.cols as real) * dLat
              && h.value.east - h.value.west == (h.value.rows as real) * h.value.cellSize
              && h.value.cellSize == dLon
  {
    var b := Indices(lats, lons, None).value;
    assert lats[1] - lats[0] == dLat;
    assert lons[1] - lons[0] == dLon;
    assert lats[|lats| - 1] - lats[0] == ((|lats| - 1) as real) * dLat;
    assert lons[|lons| - 1] - lons[0] == ((|lons| - 1) as real) * dLon;
  }

  /** Three-by-three degree grid, no box: the header of the worked example. */
  lemma ExampleHeader()
    ensures BuildHeader([10.0, 20.0, 30.0], [100.0, 110.0, 120.0], Indices([10.0, 20.0, 30.0], [100.0, 110.0, 120.0], None).value, -9999)
            == Ok(RasterHeader(35.0, 5.0, 125.0, 95.0, 3, 3, 10.0, -9999))
  {
  }

  /** The two header dialects. */
  datatype Dialect = Grass | Arc

  /** The template choice: ARC exactly for the format string "ARC", GRASS for every other string. */
  function DialectFor(outputFormat: string): (d: Dialect)
    ensures d == Arc <==> outputFormat == "ARC"
  {
    if outputFormat == "ARC" then Arc else Grass
  }

  /** The value a template line prints. */
  datatype Field = North | South | East | West | Rows | Cols | CellSize | NoData

  /** Each template's lines in order: the literal prefix and the field printed after it. */
  function Template(d: Dialect): seq<(string, Field)> {
    match d
    case Grass =>
      [("north: ", North), ("south: ", South), ("east: ", East), ("west: ", West),
       ("rows: ", Rows), ("cols: ", Cols)]
    case Arc =>
      [("ncols ", Cols), ("nrows ", Rows), ("xllcorner ", South), ("yllcorner ", West),
       ("cellsize ", CellSize), ("NODATA_value ", NoData)]
  }

  /** `str()` of a field: integers in decimal, coordinates through the caller's float rendering. */
  function FieldText(h: RasterHeader, f: Field, showReal: real -> string): string {
    match f
    case North => showReal(h.north)
    case South => showReal(h.south)
    case East => showReal(h.east)
    case West => showReal(h.west)
    case Rows => IntToString(h.rows)
    case Cols => IntToString(h.cols)
    case CellSize => showReal(h.cellSize)
    case NoData => IntToString(h.noData)
  }

  /** A template's lines filled in: each label followed by its field's text. */
  function TemplateLines(h: RasterHeader, t: seq<(string, Field)>, showReal: real -> string): (lines: seq<string>)
    ensures |lines| == |t|
  {
    seq(|t|, i requires 0 <= i < |t| => t[i].0 + FieldText(h, t[i].1, showReal))
  }

  function HeaderLines(h: RasterHeader, d: Dialect, showReal: real -> string): (lines: seq<string>)
    ensures |lines| == |Template(d)|
  {
    TemplateLines(h, Template(d), showReal)
  }

  /** `template.format(...)`: every line, each ending in a newline (the empty last part supplies the final one). */
  function TemplateText(h: RasterHeader, t: seq<(string, Field)>, showReal: real -> string): string {
    Join('\n', TemplateLines(h, t, showReal) + [""])
  }

  function HeaderText(h: RasterHeader, d: Dialect, showReal: real -> string): string {
    TemplateText(h, Template(d), showReal)
  }

  /** The rendered coordinates contain no line break. */
  predicate OneLine(h: RasterHeader, showReal: real -> string) {
    && '\n' !in showReal(h.north) && '\n' !in showReal(h.south)
    && '\n' !in showReal(h.east) && '\n' !in showReal(h.west)
    && '\n' !in showReal(h.cellSize)
  }

  /** The rest of the first line that starts with `prefix`. */
  function FindLine(lines: seq<string>, prefix: string): Option<string> {
    if |lines| == 0 then None
    else if StartsWith(lines[0], prefix) then Some(lines[0][|prefix|..])
    else FindLine(lines[1..], prefix)
  }

  /** Lines before `k` that do not start with `prefix` are passed over. */
  lemma {:induction false} FindLineSkips(lines: seq<string>, prefix: string, k: nat)
    requires k <= |lines|
    requires forall i :: 0 <= i < k ==> !StartsWith(lines[i], prefix)
    ensures FindLine(lines, prefix) == FindLine(lines[k..], prefix)
    decreases k
  {
    if k > 0 {
      FindLineSkips(lines[1..], prefix, k - 1);
      assert lines[1..][k - 1..] == lines[k..];
    }
  }

  /** The text after `prefix` on the first header line that starts with it. */
  function ReadField(text: string, prefix: string): Option<string> {
    FindLine(Split('\n', text), prefix)
  }

  /** Reads an integer field back from header text. */
  function ReadCount(text: string, prefix: string): Option<int> {
    match ReadField(text, prefix)
    case None => None
    case Some(s) => ParseInt(s)
  }

  function RowsLabel(d: Dialect): string {
    if d == Arc then "nrows " else "rows: "
  }

  function ColsLabel(d: Dialect): string {
    if d == Arc then "ncols " else "cols: "
  }

  /** No label of the template contains a line break. */
  predicate LabelsOneLine(t: seq<(string, Field)>) {
    forall i :: 0 <= i < |t| ==> '\n' !in t[i].0
  }

  /** Filled-in template text splits back into its lines and a final empty part. */
  lemma TemplateSplits(h: RasterHeader, t: seq<(string, Field)>, showReal: real -> string)
    requires OneLine(h, showReal) && LabelsOneLine(t)
    ensures Split('\n', TemplateText(h, t, showReal)) == TemplateLines(h, t, showReal) + [""]
  {
    var lines := TemplateLines(h, t, showReal) + [""];
    forall i | 0 <= i < |lines|
      ensures '\n' !in lines[i]
    {
      if i < |t| {
        var f := t[i].1;
        assert '\n' !in IntToString(h.rows) && '\n' !in IntToString(h.cols) && '\n' !in IntToString(h.noData);
        assert '\n' !in FieldText(h, f, showReal);
      }
    }
    SplitJoin('\n', lines);
  }

  /** The header text splits back into its template lines and a final empty part. */
  lemma HeaderSplits(h: RasterHeader, d: Dialect, showReal: real -> string)
    requires OneLine(h, showReal)
    ensures Split('\n', HeaderText(h, d, showReal)) == HeaderLines(h, d, showReal) + [""]
  {
    TemplateSplits(h, Template(d), showReal);
  }

  /** Two labels differ in their first or second character, so neither line can start with the other label. */
  predicate Diverge(a: string, b: string) {
    || (|a| > 0 && |b| > 0 && a[0] != b[0])
    || (|a| > 1 && |b| > 1 && a[1] != b[1])
  }

  /** A filled line starts with its own label and carries its field's text after it. */
  lemma LineOf(h: RasterHeader, t: seq<(string, Field)>, showReal: real -> string, i: nat)
    requires i < |t|
    ensures var line := (TemplateLines(h, t, showReal) + [""])[i];
            && StartsWith(line, t[i].0)
            && line[|t[i].0|..] == FieldText(h, t[i].1, showReal)
            && (forall prefix :: Diverge(t[i].0, prefix) ==> !StartsWith(line, prefix))
  {
    var line := (TemplateLines(h, t, showReal) + [""])[i];
    assert line == t[i].0 + FieldText(h, t[i].1, showReal);
  }

  /**
   * Searching a filled template for the label of entry `k` finds that entry's field text,
   * when every earlier label diverges from it.
   */
  lemma FindInTemplate(h: RasterHeader, t: seq<(string, Field)>, showReal: real -> string, k: nat)
    requires k < |t|
    requires forall i :: 0 <= i < k ==> Diverge(t[i].0, t[k].0)
    ensures FindLine(TemplateLines(h, t, showReal) + [""], t[k].0) == Some(FieldText(h, t[k].1, showReal))
  {
    var lines := TemplateLines(h, t, showReal) + [""];
    forall i | 0 <= i < k
      ensures !StartsWith(lines[i], t[k].0)
    {
      LineOf(h, t, showReal, i);
    }
    FindLineSkips(lines, t[k].0, k);
    LineOf(h, t, showReal, k);
  }

  /** In either dialect, the count lines are found under their labels. */
  lemma CountLines(h: RasterHeader, d: Dialect, showReal: real -> string)
    ensures FindLine(HeaderLines(h, d, showReal) + [""], RowsLabel(d)) == Some(IntToString(h.rows))
    ensures FindLine(HeaderLines(h, d, showReal) + [""], ColsLabel(d)) == Some(IntToString(h.cols))
  {
    var t := Template(d);
    if d == Grass {
      assert t[4] == ("rows: ", Rows) && t[5] == ("cols: ", Cols);
      assert forall i :: 0 <= i < 5 ==> Diverge(t[i].0, t[5].0) && (i < 4 ==> Diverge(t[i].0, t[4].0));
      FindInTemplate(h, t, showReal, 4);
      FindInTemplate(h, t, showReal, 5);
    } else {
      assert t[0] == ("ncols ", Cols) && t[1] == ("nrows ", Rows);
      assert Diverge(t[0].0, t[1].0);
      FindInTemplate(h, t, showReal, 0);
      FindInTemplate(h, t, showReal, 1);
    }
  }

  /** Reading the row and column counts back from either dialect's text gives the header's counts. */
  lemma CountsRoundTrip(h: RasterHeader, d: Dialect, showReal: real -> string)
    requires OneLine(h, showReal)
    ensures ReadCount(HeaderText(h, d, showReal), RowsLabel(d)) == Some(h.rows)
    ensures ReadCount(HeaderText(h, d, showReal), ColsLabel(d)) == Some(h.cols)
  {
    HeaderSplits(h, d, showReal);
    CountLines(h, d, showReal);
    IntRoundTrip(h.rows);
    IntRoundTrip(h.cols);
  }
}

=== FILE: naming.dfy ===
/** Output names and defaults of `create_ascii`: extension, per-timestep file name, zip name, timesteps. */
module Naming {
  import opened Results

  /** `'asc' if output_format == 'ARC' else 'ggd'`. */
  function Extension(outputFormat: string): (ext: string)
    ensures ext == "asc" <==> outputFormat == "ARC"
    ensures ext == "ggd" <==> outputFormat != "ARC"
    ensures '.' !in ext
  {
    if outputFormat == "ARC" then "asc" else "ggd"
  }

  /** `'%s-%s.%s' % (variable, time_str, file_extension)`. */
  function OutputFileName(variable: string, stamp: string, ext: string): string {
    variable + "-" + stamp + "." + ext
  }

  /** Recovers the timestamp from a file name, given the variable and the extension. */
  function StampOf(fileName: string, variable: string, ext: string): string
    requires |variable| + 1 + |ext| + 1 <= |fileName|
  {
    fileName[|variable| + 1 .. |fileName| - |ext| - 1]
  }

  /** The timestamp can be read back from the file name it was written into. */
  lemma StampRoundTrip(variable: string, stamp: string, ext: string)
    ensures |variable| + 1 + |ext| + 1 <= |OutputFileName(variable, stamp, ext)|
    ensures StampOf(OutputFileName(variable, stamp, ext), variable, ext) == stamp
  {
    var name := OutputFileName(variable, stamp, ext);
    assert name[|variable| + 1 .. |name| - |ext| - 1] == stamp;
  }

  /** Two timesteps of one variable share a file name only when their timestamps are equal. */
  lemma FileNamesDistinct(variable: string, stamp1: string, stamp2: string, ext: string)
    requires stamp1 != stamp2
    ensures OutputFileName(variable, stamp1, ext) != OutputFileName(variable, stamp2, ext)
  {
    StampRoundTrip(variable, stamp1, ext);
    StampRoundTrip(variable, stamp2, ext);
  }

  /** `output_zipfile_name or '%s-%s.zip' % (input_file_name, variable)`: None and "" both take the default. */
  function ZipName(requested: Option<string>, inputFileName: string, variable: string): (name: string)
    ensures requested.Some? && requested.value != "" ==> name == requested.value
    ensures requested.None? || requested.value == "" ==>
              name == inputFileName + "-" + variable + ".zip" && name[..|inputFileName|] == inputFileName
  {
    match requested
    case Some(n) => if n != "" then n else inputFileName + "-" + variable + ".zip"
    case None => inputFileName + "-" + variable + ".zip"
  }

  /** `timesteps or range(0, count)`: a missing or empty request means every timestep in order. */
  function Timesteps(requested: Option<seq<int>>, count: nat): (steps: seq<int>)
    ensures requested.Some? && |requested.value| > 0 ==> steps == requested.value
    ensures requested.None? || |requested.value| == 0 ==>
              |steps| == count && forall k :: 0 <= k < count ==> steps[k] == k
  {
    if requested.Some? && |requested.value| > 0 then requested.value
    else seq(count, k requires 0 <= k < count => k)
  }
}

=== FILE: netcdf.dfy ===
/**
 * The part of a NetCDF dataset the conversion reads: its variables in declaration order,
 * each with an optional `units` attribute, named dimensions and a masked value array
 * stored flat in row-major (C) order.
 */
module Netcdf {
  import opened Results

  /** One element of a masked array: a stored value, or a masked (missing) position. */
  datatype Cell = Value(value: int) | Masked

  /**
   * A dataset variable. `data` holds the array elements in row-major order over `shape`;
   * `samples` is how the conversion reads a one-dimensional variable as floating point
   * numbers (`lat_var[:]`, `data.variables['time'][k]`), one sample per element.
   */
  datatype Variable = Variable(
    name: string,
    units: Option<string>,
    dimensions: seq<string>,
    shape: seq<nat>,
    data: seq<Cell>,
    samples: seq<real>)
  {
    /** One extent per dimension, exactly as many elements as the extents allow, and one sample per element of a one-dimensional variable. */
    predicate Valid() {
      && |shape| == |dimensions| && |data| == Product(shape)
      && (|shape| == 1 ==> |samples| == shape[0])
    }
  }

  /** The dataset's variables, in the order `data.variables` iterates them. */
  datatype Dataset = Dataset(variables: seq<Variable>)

  /** The errors the conversion can raise; each names the Python exception's cause. */
  datatype Fault =
    | LatitudeNotFound     // no variable has a latitude unit: `None[:]` raises TypeError
    | LongitudeNotFound    // no variable has a longitude unit
    | EmptyAxis            // `argmin` of an empty axis raises ValueError
    | IndexOutOfRange      // an IndexError from indexing an axis or the variable
    | UnknownVariable      // `data.variables[name]` raises KeyError
    | NotTwoDimensional    // the slice does not leave exactly two axes to print
    | UnsizedTimeVariable  // `len()` of a scalar time variable raises TypeError
    | TimeNotScalar        // a step of a multi-dimensional time variable is an array: `time.gmtime` raises TypeError

  /** `data.variables[name]`: the variable declared under `name`, if any. */
  function Lookup(variables: seq<Variable>, name: string): (r: Option<Variable>)
    ensures r.None? <==> forall i :: 0 <= i < |variables| ==> variables[i].name != name
    ensures r.Some? ==> r.value in variables && r.value.name == name
  {
    if |variables| == 0 then None
    else if variables[0].name == name then Some(variables[0])
    else Lookup(variables[1..], name)
  }

  /** Number of elements of an array of the given shape. */
  function Product(shape: seq<nat>): nat {
    if |shape| == 0 then 1 else shape[0] * Product(shape[1..])
  }

  /** Every coordinate of `point` lies within its extent. */
  predicate InBounds(point: seq<nat>, shape: seq<nat>) {
    |point| == |shape| && forall d :: 0 <= d < |point| ==> point[d] < shape[d]
  }

  /** Row-major position of `point` in the flat element sequence. */
  function Offset(point: seq<nat>, shape: seq<nat>): nat
    requires |point| == |shape|
  {
    if |point| == 0 then 0 else point[0] * Product(shape[1..]) + Offset(point[1..], shape[1..])
  }

  lemma MulLeftMono(a: nat, b: nat, c: nat)
    requires a <= b
    ensures a * c <= b * c
  {
  }

  /** An in-bounds point addresses an element that exists. */
  lemma {:induction false} OffsetInRange(point: seq<nat>, shape: seq<nat>)
    requires InBounds(point, shape)
    ensures Offset(point, shape) < Product(shape)
    decreases |point|
  {
    if |point| > 0 {
      var rest := Product(shape[1..]);
      OffsetInRange(point[1..], shape[1..]);
      MulLeftMono(point[0], shape[0] - 1, rest);
      assert (shape[0] - 1) * rest + rest == shape[0] * rest;
    }
  }

  /** The element of `v` at an in-bounds point. */
  function CellAt(v: Variable, point: seq<nat>): Cell
    requires v.Valid() && InBounds(point, v.shape)
  {
    OffsetInRange(point, v.shape);
    v.data[Offset(point, v.shape)]
  }

  /** Python's `s[i]` on a sequence: negative positions count from the end; None where it raises IndexError. */
  function At(s: seq<real>, i: int): (r: Option<real>)
    ensures r.Some? <==> -|s| <= i < |s|
    ensures 0 <= i < |s| ==> r == Some(s[i])
    ensures -|s| <= i < 0 ==> r == Some(s[|s| + i])
  {
    if 0 <= i < |s| then Some(s[i])
    else if -|s| <= i < 0 then Some(s[|s| + i])
    else None
  }
}

=== FILE: results.dfy ===
/** Option and Result values used in place of Python's `None` and raised exceptions. */
module Results {

  /** A value that may be absent, as Python's `None`. */
  datatype Option<+T> = None | Some(value: T)

  /** The outcome of a step that can raise: a value, or the error that ends the conversion. */
  datatype Result<+T, +E> = Ok(value: T) | Failure(error: E) {

    predicate IsFailure() {
      Failure?
    }

    function PropagateFailure<U>(): Result<U, E>
      requires Failure?
    {
      Failure(error)
    }

    function Extract(): T
      requires Ok?
    {
      value
    }
  }
}

=== FILE: slicing.dfy ===
/**
 * The slice extractor: the per-dimension slice description that `index_variable` spells
 * out as an index string, the 2-D slice it selects, and the masked-cell fill of `get_values`.
 */
module Slicing {
  import opened Results
  import opened Netcdf
  import opened BoundingBox

  /** The dimension name indexed by the timestep. */
  const TimeName: string := "time"

  /** The dimension names the resolver found for latitude and longitude. */
  datatype AxisNames = AxisNames(lat: string, lon: string)

  /** One entry of the index expression: `t`, `lo:hiExcl`, or `0`. */
  datatype SliceSpec = Index(t: int) | Range(lo: int, hiExcl: int) | Zero

  /** The index entry for one dimension name: time first, then latitude, then longitude, else 0. */
  function SpecFor(dim: string, names: AxisNames, t: int, b: BBoxIndices): SliceSpec {
    if dim == TimeName then Index(t)
    else if dim == names.lat then Range(b.south, b.north + 1)
    else if dim == names.lon then Range(b.west, b.east + 1)
    else Zero
  }

  /** `index_variable`'s index list: one entry per declared dimension, in declaration order. */
  function SliceSpecs(dims: seq<string>, names: AxisNames, t: int, b: BBoxIndices): (specs: seq<SliceSpec>)
    ensures |specs| == |dims|
    ensures forall i :: 0 <= i < |dims| && dims[i] == TimeName ==> specs[i] == Index(t)
    ensures forall i :: 0 <= i < |dims| && dims[i] != TimeName && dims[i] == names.lat ==>
              specs[i] == Range(b.south, b.north + 1)
    ensures forall i :: 0 <= i < |dims| && dims[i] !in {TimeName, names.lat} && dims[i] == names.lon ==>
              specs[i] == Range(b.west, b.east + 1)
    ensures forall i :: 0 <= i < |dims| && dims[i] !in {TimeName, names.lat, names.lon} ==> specs[i] == Zero
  {
    seq(|dims|, i requires 0 <= i < |dims| => SpecFor(dims[i], names, t, b))
  }

  /** A slice bound as Python clips it for an axis of length `n`: negative counts from the end. */
  function ClipBound(k: int, n: nat): (r: nat)
    ensures r <= n
    ensures 0 <= k <= n ==> r == k
  {
    if k < 0 then (if k + n < 0 then 0 else k + n) else if k > n then n else k
  }

  /** Number of positions `lo:hi` selects on an axis of length `n`; empty when the bounds cross. */
  function SliceLength(lo: int, hi: int, n: nat): (len: nat)
    ensures ClipBound(lo, n) + len <= n
    ensures 0 <= lo <= hi <= n ==> len == hi - lo
    ensures 0 <= hi <= lo ==> len == 0
  {
    var a := ClipBound(lo, n);
    var z := ClipBound(hi, n);
    if z > a then z - a else 0
  }

  /** Whether the integer index `t` exists on an axis of length `n` (negative counts from the end). */
  predicate IndexOk(t: int, n: nat) {
    -(n as int) <= t < n
  }

  function NormalIndex(t: int, n: nat): (r: nat)
    requires IndexOk(t, n)
    ensures r < n
    ensures 0 <= t ==> r == t
  {
    if t < 0 then t + n else t
  }

  /** Every single-position entry addresses an existing position; otherwise numpy raises IndexError. */
  predicate PositionsOk(specs: seq<SliceSpec>, shape: seq<nat>)
    requires |specs| == |shape|
  {
    forall d :: 0 <= d < |specs| ==>
      match specs[d]
      case Index(t) => IndexOk(t, shape[d])
      case Zero => shape[d] > 0
      case Range(_, _) => true
  }

  /** Positions `d >= from` whose entry is a range, ascending: the axes the slice keeps. */
  function RangeAxes(specs: seq<SliceSpec>, from: nat): (r: seq<nat>)
    ensures forall k :: 0 <= k < |r| ==> from <= r[k] < |specs| && specs[r[k]].Range?
    ensures forall k, l :: 0 <= k < l < |r| ==> r[k] < r[l]
    ensures forall d :: from <= d < |specs| && specs[d].Range? ==> d in r
    decreases |specs| - from
  {
    if from >= |specs| then []
    else if specs[from].Range? then [from] + RangeAxes(specs, from + 1)
    else RangeAxes(specs, from + 1)
  }

  /** The element position the slice's cell `(i, j)` comes from; `p` and `q` are the kept axes. */
  function SourcePoint(specs: seq<SliceSpec>, shape: seq<nat>, p: nat, q: nat, i: nat, j: nat): (point: seq<nat>)
    requires |specs| == |shape| && PositionsOk(specs, shape)
    requires p < q < |specs| && specs[p].Range? && specs[q].Range?
    requires forall d :: 0 <= d < |specs| && specs[d].Range? ==> d == p || d == q
    requires i < SliceLength(specs[p].lo, specs[p].hiExcl, shape[p])
    requires j < SliceLength(specs[q].lo, specs[q].hiExcl, shape[q])
    ensures InBounds(point, shape)
  {
    seq(|specs|, d requires 0 <= d < |specs| =>
      match specs[d]
      case Index(t) => NormalIndex(t, shape[d])
      case Zero => 0
      case Range(lo, _) => ClipBound(lo, shape[d]) + (if d == p then i else j))
  }

  /**
   * `eval("variable[...]")` for a slice that keeps exactly two axes: the masked 2-D array whose
   * rows run along the first kept axis. Other numbers of kept axes do not print as a grid.
   */
  function Extract(v: Variable, specs: seq<SliceSpec>): (r: Result<seq<seq<Cell>>, Fault>)
    requires v.Valid() && |specs| == |v.shape|
    ensures r.Failure? <==> !PositionsOk(specs, v.shape) || |RangeAxes(specs, 0)| != 2
    ensures r.Ok? ==>
              var p := RangeAxes(specs, 0)[0];
              var q := RangeAxes(specs, 0)[1];
              && |r.value| == SliceLength(specs[p].lo, specs[p].hiExcl, v.shape[p])
              && forall i :: 0 <= i < |r.value| ==>
                   |r.value[i]| == SliceLength(specs[q].lo, specs[q].hiExcl, v.shape[q])
  {
    if !PositionsOk(specs, v.shape) then Failure(IndexOutOfRange)
    else
      var axes := RangeAxes(specs, 0);
      if |axes| != 2 then Failure(NotTwoDimensional)
      else
        var p, q := axes[0], axes[1];
        var rows := SliceLength(specs[p].lo, specs[p].hiExcl, v.shape[p]);
        var cols := SliceLength(specs[q].lo, specs[q].hiExcl, v.shape[q]);
        Ok(seq(rows, i requires 0 <= i < rows =>
             seq(cols, j requires 0 <= j < cols => CellAt(v, SourcePoint(specs, v.shape, p, q, i, j)))))
  }

  /** Some element of the array is masked (`mask.any()`). */
  predicate AnyMasked(g: seq<seq<Cell>>) {
    exists i, j :: 0 <= i < |g| && 0 <= j < |g[i]| && g[i][j].Masked?
  }

  /** One element after `filled(no_data)`: a masked element becomes the no-data value. */
  function Filled(c: Cell, noData: int): (r: Cell)
    ensures r.Value?
    ensures c.Value? ==> r == c
  {
    if c.Masked? then Value(noData) else c
  }

  /** `array.filled(no_data)` applied only when some element is masked, as `get_values` does. */
  function FillMasked(g: seq<seq<Cell>>, noData: int): (r: seq<seq<Cell>>)
    ensures |r| == |g| && forall i :: 0 <= i < |g| ==> |r[i]| == |g[i]|
    ensures forall i, j :: 0 <= i < |g| && 0 <= j < |g[i]| ==> r[i][j] == Filled(g[i][j], noData)
    ensures !AnyMasked(r)
    ensures !AnyMasked(g) ==> r == g
  {
    if AnyMasked(g) then
      seq(|g|, i requires 0 <= i < |g| =>
        seq(|g[i]|, j requires 0 <= j < |g[i]| => Filled(g[i][j], noData)))
    else g
  }

  /** Every variable of the dataset is well formed, and no two share a name (they are the keys of `data.variables`). */
  predicate WellFormed(variables: seq<Variable>) {
    && (forall i :: 0 <= i < |variables| ==> variables[i].Valid())
    && (forall i, j :: 0 <= i < j < |variables| ==> variables[i].name != variables[j].name)
  }

  /** `get_values`: look the variable up, slice it for timestep `t`, and fill masked cells. */
  function GetValues(variables: seq<Variable>, name: string, names: AxisNames, t: int, b: BBoxIndices, noData: int)
    : (r: Result<seq<seq<Cell>>, Fault>)
    requires WellFormed(variables)
    ensures Lookup(variables, name).None? ==> r == Failure(UnknownVariable)
    ensures Lookup(variables, name).Some? ==>
              var v := Lookup(variables, name).value;
              var slice := Extract(v, SliceSpecs(v.dimensions, names, t, b));
              && (r.Ok? <==> slice.Ok?)
              && (slice.Failure? ==> r == Failure(slice.error))
              && (slice.Ok? ==> r.value == FillMasked(slice.value, noData))
    ensures r.Ok? ==> !AnyMasked(r.value)
  {
    match Lookup(variables, name)
    case None => Failure(UnknownVariable)
    case Some(v) =>
      var g :- Extract(v, SliceSpecs(v.dimensions, names, t, b));
      Ok(FillMasked(g, noData))
  }

  /** A (time, lat, lon) variable is declared with the resolved names, and those names are distinct. */
  predicate StandardLayout(v: Variable, names: AxisNames) {
    && v.dimensions == [TimeName, names.lat, names.lon]
    && names.lat != TimeName && names.lon != TimeName && names.lat != names.lon
  }

  /** The element at `(i, j)` of an extracted slice is the variable's element at its source point. */
  lemma ExtractCell(v: Variable, specs: seq<SliceSpec>, i: nat, j: nat)
    requires v.Valid() && |specs| == |v.shape|
    requires Extract(v, specs).Ok?
    requires i < |Extract(v, specs).value| && j < |Extract(v, specs).value[i]|
    ensures var p, q := RangeAxes(specs, 0)[0], RangeAxes(specs, 0)[1];
            Extract(v, specs).value[i][j] == CellAt(v, SourcePoint(specs, v.shape, p, q, i, j))
  {
  }

  /** The index list of a (time, lat, lon) variable, and the two axes it keeps. */
  lemma StandardSpecs(v: Variable, names: AxisNames, t: int, b: BBoxIndices)
    requires StandardLayout(v, names)
    ensures SliceSpecs(v.dimensions, names, t, b) == [Index(t), Range(b.south, b.north + 1), Range(b.west, b.east + 1)]
    ensures RangeAxes(SliceSpecs(v.dimensions, names, t, b), 0) == [1, 2]
  {
    var specs := SliceSpecs(v.dimensions, names, t, b);
    assert specs == [Index(t), Range(b.south, b.north + 1), Range(b.west, b.east + 1)];
    assert RangeAxes(specs, 2) == [2];
    assert RangeAxes(specs, 0) == RangeAxes(specs, 1) == [1, 2];
  }

  /** Cell `(i, j)` of `g` is the element of a (time, lat, lon) variable at timestep `t`, latitude `south + i`, longitude `west + j`. */
  predicate StandardCell(v: Variable, g: seq<seq<Cell>>, t: int, b: BBoxIndices, i: int, j: int)
    requires v.Valid() && |v.shape| == 3 && IndexOk(t, v.shape[0])
  {
    var point := [NormalIndex(t, v.shape[0]), b.south + i, b.west + j];
    0 <= i < |g| && 0 <= j < |g[i]| && b.south + i >= 0 && b.west + j >= 0
    && InBounds(point, v.shape) && g[i][j] == CellAt(v, point)
  }

  /**
   * For a (time, lat, lon) variable and in-range indices with south <= north and west <= east,
   * the slice has one row per latitude index from south to north and one column per longitude
   * index from west to east, each the element at that timestep and those positions.
   */
  lemma StandardSlice(v: Variable, names: AxisNames, t: int, b: BBoxIndices)
    requires v.Valid() && StandardLayout(v, names)
    requires IndexOk(t, v.shape[0])
    requires 0 <= b.south <= b.north < v.shape[1] && 0 <= b.west <= b.east < v.shape[2]
    ensures var r := Extract(v, SliceSpecs(v.dimensions, names, t, b));
            && r.Ok?
            && |r.value| == b.north - b.south + 1
            && (forall i :: 0 <= i < |r.value| ==> |r.value[i]| == b.east - b.west + 1)
            && forall i, j :: 0 <= i < |r.value| && 0 <= j < |r.value[i]| ==>
                 StandardCell(v, r.value, t, b, i, j)
  {
    var specs := SliceSpecs(v.dimensions, names, t, b);
    StandardSpecs(v, names, t, b);
    var r := Extract(v, specs);
    forall i, j | 0 <= i < |r.value| && 0 <= j < |r.value[i]|
      ensures StandardCell(v, r.value, t, b, i, j)
    {
      ExtractCell(v, specs, i, j);
      assert SourcePoint(specs, v.shape, 1, 2, i, j) == [NormalIndex(t, v.shape[0]), b.south + i, b.west + j];
    }
  }

  /** When the latitude indices are reversed (south above north) the slice has no rows at all. */
  lemma CrossedLatitudeSliceEmpty(v: Variable, names: AxisNames, t: int, b: BBoxIndices)
    requires v.Valid() && StandardLayout(v, names)
    requires IndexOk(t, v.shape[0])
    requires 0 <= b.north < b.south < v.shape[1]
    ensures var r := Extract(v, SliceSpecs(v.dimensions, names, t, b));
            r.Ok? && |r.value| == 0
  {
    StandardSpecs(v, names, t, b);
  }

  /** A variable found in a well-formed dataset is well formed. */
  lemma LookupValid(variables: seq<Variable>, name: string)
    requires WellFormed(variables) && Lookup(variables, name).Some?
    ensures Lookup(variables, name).value.Valid()
  {
    var v := Lookup(variables, name).value;
    var i :| 0 <= i < |variables| && variables[i] == v;
  }

  /** Cell `(i, j)` of `g` is the filled element of a (time, lat, lon) variable at timestep `t`, latitude `south + i`, longitude `west + j`. */
  predicate FilledCell(v: Variable, g: seq<seq<Cell>>, t: int, b: BBoxIndices, noData: int, i: int, j: int)
    requires v.Valid() && |v.shape| == 3 && IndexOk(t, v.shape[0])
  {
    var point := [NormalIndex(t, v.shape[0]), b.south + i, b.west + j];
    0 <= i < |g| && 0 <= j < |g[i]| && b.south + i >= 0 && b.west + j >= 0
    && InBounds(point, v.shape) && g[i][j] == Filled(CellAt(v, point), noData)
  }

  /**
   * `get_values` of a (time, lat, lon) variable over ordered in-range indices: one row per
   * latitude index from south to north and one value per longitude index from west to east,
   * each the element at that timestep and those positions, with masked elements filled.
   */
  lemma StandardValues(variables: seq<Variable>, name: string, names: AxisNames, t: int, b: BBoxIndices, noData: int)
    requires WellFormed(variables) && Lookup(variables, name).Some?
    requires var v := Lookup(variables, name).value;
             && StandardLayout(v, names) && IndexOk(t, v.shape[0])
             && 0 <= b.south <= b.north < v.shape[1] && 0 <= b.west <= b.east < v.shape[2]
    ensures Lookup(variables, name).value.Valid()
    ensures var v := Lookup(variables, name).value;
            var r := GetValues(variables, name, names, t, b, noData);
            && r.Ok?
            && |r.value| == b.north - b.south + 1
            && (forall i :: 0 <= i < |r.value| ==> |r.value[i]| == b.east - b.west + 1)
            && forall i, j :: 0 <= i < |r.value| && 0 <= j < |r.value[i]| ==>
                 FilledCell(v, r.value, t, b, noData, i, j)
  {
    LookupValid(variables, name);
    var v := Lookup(variables, name).value;
    StandardSlice(v, names, t, b);
    var g := Extract(v, SliceSpecs(v.dimensions, names, t, b)).value;
    var r := GetValues(variables, name, names, t, b, noData).value;
    assert r == FillMasked(g, noData);
    forall i, j | 0 <= i < |r| && 0 <= j < |r[i]|
      ensures FilledCell(v, r, t, b, noData, i, j)
    {
      assert StandardCell(v, g, t, b, i, j);
    }
  }
}

=== FILE: text.dfy ===
/** Python's `sep.join(parts)` and `s.split(sep)` for a one-character separator. */
module Text {

  /** `sep.join(parts)`: the parts with one separator between neighbours. */
  function Join(sep: char, parts: seq<string>): (s: string)
    ensures |parts| == 0 ==> s == ""
    ensures |parts| == 1 ==> s == parts[0]
  {
    if |parts| == 0 then ""
    else if |parts| == 1 then parts[0]
    else parts[0] + [sep] + Join(sep, parts[1..])
  }

  /** `s.split(sep)`: the maximal separator-free pieces of `s`, in order; never empty. */
  function Split(sep: char, s: string): (parts: seq<string>)
    ensures |parts| >= 1
    ensures forall i :: 0 <= i < |parts| ==> sep !in parts[i]
    ensures Join(sep, parts) == s
    decreases |s|
  {
    if |s| == 0 then [""]
    else
      var rest := Split(sep, s[1..]);
      if s[0] == sep then
        assert ([""] + rest)[1..] == rest;
        [""] + rest
      else
        var parts := [[s[0]] + rest[0]] + rest[1..];
        assert |rest| > 1 ==> Join(sep, rest) == rest[0] + [sep] + Join(sep, rest[1..]);
        assert |rest| > 1 ==> parts[1..] == rest[1..];
        assert s == [s[0]] + s[1..];
        parts
  }

  /** A separator-free string splits into itself alone. */
  lemma {:induction false} SplitWithoutSeparator(sep: char, p: string)
    requires sep !in p
    ensures Split(sep, p) == [p]
    decreases |p|
  {
    if |p| > 0 {
      SplitWithoutSeparator(sep, p[1..]);
      assert [p[0]] + p[1..] == p;
    }
  }

  /** Splitting a separator-free first piece, a separator and a tail peels the first piece off. */
  lemma {:induction false} SplitCons(sep: char, p: string, t: string)
    requires sep !in p
    ensures Split(sep, p + [sep] + t) == [p] + Split(sep, t)
    decreases |p|
  {
    var s := p + [sep] + t;
    if |p| == 0 {
      assert s[1..] == t;
    } else {
      assert s[1..] == p[1..] + [sep] + t;
      SplitCons(sep, p[1..], t);
      assert [p[0]] + p[1..] == p;
    }
  }

  /** Split undoes Join whenever no part contains the separator. */
  lemma {:induction false} SplitJoin(sep: char, parts: seq<string>)
    requires |parts| >= 1
    requires forall i :: 0 <= i < |parts| ==> sep !in parts[i]
    ensures Split(sep, Join(sep, parts)) == parts
    decreases |parts|
  {
    if |parts| == 1 {
      SplitWithoutSeparator(sep, parts[0]);
    } else {
      SplitJoin(sep, parts[1..]);
      SplitCons(sep, parts[0], Join(sep, parts[1..]));
      assert [parts[0]] + parts[1..] == parts;
    }
  }

  /** `s.startswith(prefix)`. */
  predicate StartsWith(s: string, prefix: string) {
    |prefix| <= |s| && s[..|prefix|] == prefix
  }
}
